=== FILE: README.md ===
# Ktor demo league backend: a Dafny model of its player pipeline, standings and set simulation

The system is a small sports-league backend written with Ktor, plus an admin page in plain
JavaScript. This project models four pieces of its logic as pure Dafny functions and proves
properties about them:

1. **The player change-event pipeline on the server.**
   - `WsEvent` is the closed set of realtime events. It is written as JSON with the class
     discriminator `"type"` and with defaults encoded.
   - `clients` is the registry of `/ws/players` sessions. A session is added when it connects
     and removed in `finally`.
   - The POST, PUT and DELETE `/players` handlers and `savePlayer` are modelled. Each handler
     is a function of the store, the registry and the request. It returns the status, the
     body, the new store, and the frames sent to each session.
2. **The admin page's player list.**
   - `handleEvent` is a reducer over `playersData`.
   - `renderPlayers` draws the table from an id-sorted copy of the list.
   - The name and age handling of `addPlayer` and `saveEdit` is modelled, including
     `String.prototype.trim` and `parseInt`.
3. **The standings of GET /teams.**
   - Each finished match is classified as a win, draw or loss for the team.
   - The counters, the match count and the points go into `TeamWithMembersDTO`.
   - Points use Kotlin `Int` arithmetic.
4. **The set simulation.**
   - `generateSetScore` draws one set score as text.
   - `playIndividualMatch` plays sets until one player has won three, then records the row.
   - Both are defined next to the seeder, but nothing in the repository calls
     `playIndividualMatch`, and `generateSetScore` is called only from it. The model covers
     these unused functions as they are written.

The records of `model/DTOs.kt` are Dafny datatypes, and Kotlin `Int` is the newtype
`Numbers.Int32`. Request bodies are decoded by a strict reading of kotlinx.serialization's rules:
- a property without a default value is required;
- `null` is accepted only for a nullable property;
- unknown keys are refused;
- a string property takes a JSON string and an `Int` property a JSON integer within `Int`.

The last rule is stricter than Ktor's default `json()` configuration, which is lenient (see
"Left out").

Module layout:

| module | file | contents |
|---|---|---|
| `Wrappers` | wrappers.dfy | `Option` |
| `Numbers` | numbers.dfy | `Int32`, `Int` wrap-around, decimal rendering, `toIntOrNull`, `split` and `joinToString` |
| `Json` | json.dfy | JSON values as trees, with member lookup for required and nullable properties |
| `Dtos` | dtos.dfy | the DTO records with their encoders and decoders |
| `Events` | events.dfy | `WsEvent`, its wire form, and the browser's reading of a message |
| `Registry` | registry.dfy | the `clients` list, the session lifecycle, and the `forEach` send loop |
| `PlayersApi` | players_api.dfy | the three write handlers and `savePlayer` |
| `Dashboard` | dashboard.dfy | `handleEvent`, `renderPlayers`, and the two forms |
| `Standings` | standings.dfy | the /teams tally |
| `SetPlay` | sets.dfy | `generateSetScore` and `playIndividualMatch` |
| `EndToEnd` | end_to_end.dfy | server handlers and browser page together |

The handlers are modelled as the code behaves, not as a cleaner design would behave:
- POST runs its `forEach` send loop twice, so every session gets the `PlayerAdded` frame twice.
- DELETE answers 200 whether or not a row existed. It broadcasts in both cases and never
  answers 404.
- Nothing catches an exception thrown by `send`. The first session whose send fails ends
  the loop: sessions before it have the frame and sessions after it do not. The handler then
  fails with 500 after the store change is committed. Which sessions fail is a parameter of
  each handler, one set per send loop, so a session may take POST's first frame and fail on
  its second.
- The points of a team are `2 * wins + draws`, as the code computes them. The comment on that
  line speaks of three points per win.

## Model

| member | source | states |
|---|---|---|
| `Numbers.Wrap32` | src/main/kotlin/Application.kt:505 | Kotlin `Int` arithmetic: the result agrees with the exact value modulo 2^32, and equals it exactly when the exact value fits in an `Int` |
| `Numbers.ParseIntOrNull` | src/main/kotlin/Application.kt:424 | `toIntOrNull` succeeds exactly when the text is an optional '-' or '+' followed by at least one digit and the signed value fits in an `Int`, and then returns that value; a leading '-' is the only way to get a negative value |
| `Numbers.Show` | src/main/kotlin/Application.kt:174 | the decimal text of an integer in a string template is never empty, and starts with a digit exactly when the value is not negative |
| `Numbers.ParseShow` | src/main/kotlin/Application.kt:424 | `toIntOrNull` reads back the decimal text of every `Int`, negative values included |
| `Numbers.ParseRejectsOutOfRange` | src/main/kotlin/Application.kt:424-425 | the decimal text of any integer outside the `Int` range is refused, so such a path id takes the 400 branch |
| `Numbers.ParseRejectsNonDigit` | src/main/kotlin/Application.kt:424-425 | a path id with a non-digit after its first character is never an `Int`, so it takes the 400 branch |
| `Numbers.Split` | src/main/kotlin/Application.kt:184 | `split` at a one-character delimiter gives at least one part, and no part contains the delimiter |
| `Numbers.Join` | src/main/kotlin/Application.kt:200 | `joinToString` of no parts is empty, and otherwise starts with the first part |
| `Numbers.JoinSplit` | src/main/kotlin/Application.kt:184 | splitting at a one-character delimiter and joining with it again gives back the original text |
| `Numbers.SplitAtFirstSep` | src/main/kotlin/Application.kt:184 | the first delimiter ends the first part of a split |
| `Json.DecodeEncodeAll` | src/main/kotlin/model/DTOs.kt:65-66 | a list whose elements each decode back decodes back as a whole |
| `Dtos.RequestOf` | src/main/kotlin/model/DTOs.kt:92-105 | a stored player is its request part with its id attached |
| `Dtos.RequestOfWithId` | src/main/kotlin/model/DTOs.kt:92-105 | attaching an id to a request and taking the request part back loses nothing |
| `Dtos.DecodePlayer` | src/main/kotlin/model/DTOs.kt:92-98 | a decoded player is exactly what the encoder writes for it, so nothing is dropped or invented |
| `Dtos.DecodeEncodePlayer` | src/main/kotlin/model/DTOs.kt:92-98 | every player the server writes decodes back to itself |
| `Dtos.DecodeNewPlayer` | src/main/kotlin/model/DTOs.kt:100-105 | a body without `email`, or without `age`, is refused; `age` may be null but must be present; a decoded request re-encodes to the body |
| `Dtos.DecodeEncodeNewPlayer` | src/main/kotlin/model/DTOs.kt:100-105 | every well-formed request decodes back to itself |
| `Dtos.EncodeUser` | src/main/kotlin/model/DTOs.kt:24-31 | a user is written with exactly the keys id, email, firstName and lastName |
| `Dtos.UserHidesPassword` | src/main/kotlin/model/DTOs.kt:24-31 | users that differ only in password hash or role look the same on the wire, and no password key is written |
| `Dtos.MemberOf` | src/main/kotlin/Application.kt:510-515 | a member's name is the last name, a space, then the first name; id and captain flag are carried over |
| `Dtos.OptionalList` | src/main/kotlin/model/DTOs.kt:65-66 | a missing list property and an explicit null both decode to null |
| `Dtos.EncodeMatch` | src/main/kotlin/model/DTOs.kt:54-67 | a match is written with all eleven properties, the two lists included |
| `Dtos.DecodeMatch` | src/main/kotlin/model/DTOs.kt:54-67 | a decoded match object has all nine required properties |
| `Dtos.DecodeEncodeLists` | src/main/kotlin/model/DTOs.kt:69-84 | individual-match lists and participant lists decode back to themselves |
| `Dtos.DecodeEncodeMatch` | src/main/kotlin/model/DTOs.kt:54-67 | every match the server writes decodes back to itself |
| `Dtos.MatchListsDefaultToNull` | src/main/kotlin/model/DTOs.kt:65-66 | leaving out both list properties reads them as null and keeps every other field |
| `Dtos.MatchOtherFieldsRequired` | src/main/kotlin/model/DTOs.kt:56-64 | leaving out any of the nine other properties makes the whole match unreadable |
| `Events.Encode` | src/main/kotlin/Application.kt:121-136 | every event's message carries its serial name under "type" |
| `Events.EncodeInjective` | src/main/kotlin/Application.kt:121-136 | distinct events give distinct messages |
| `Events.ReadPlayer` | src/main/resources/static/js/admin.js:113-135 | the page reads every player object the server writes as that player |
| `Events.Classify` | src/main/resources/static/js/admin.js:112-142 | a message with no "type" is ignored; each recognised event comes from a message whose "type" is its tag |
| `Events.ClassifyEncode` | src/main/resources/static/js/admin.js:112-135 | every message the server sends reads back in the page as the event it encodes |
| `Events.UnknownTagIgnored` | src/main/resources/static/js/admin.js:140-141 | a message whose "type" is none of the three tags is ignored |
| `Registry.RemoveFirst` | src/main/kotlin/Application.kt:605 | `remove` drops the first occurrence of the session and keeps everything else in order; it changes nothing when the session is absent |
| `Registry.RemoveFirstKeepsUnique` | src/main/kotlin/Application.kt:605 | in a duplicate-free registry, `remove` takes out exactly that session and keeps the registry duplicate-free |
| `Registry.Apply` | src/main/kotlin/Application.kt:599-608 | a connect adds the session and a `finally` removes it; both keep the registry duplicate-free |
| `Registry.RegistryTracksOpenSessions` | src/main/kotlin/Application.kt:599-608 | along any connect/close trace, the registry holds each session at most once, and holds exactly the sessions that connected and have not reached `finally`, however their channels ended |
| `Registry.SessionLeavesNoTrace` | src/main/kotlin/Application.kt:601-605 | a session that connects and then closes, normally or by exception, leaves the registry as it was |
| `Registry.ForEachSend` | src/main/kotlin/Application.kt:413 | the send loop delivers, in registry order, to the sessions before the first one that fails; it completes exactly when it sent to all of them |
| `Registry.CompletesIffNoFailure` | src/main/kotlin/Application.kt:449 | a send loop completes exactly when no registered session fails |
| `Registry.CompletedSendsOnceEach` | src/main/kotlin/Application.kt:466 | a completed send loop over a duplicate-free registry sends each registered session exactly one frame and no other session any |
| `Registry.SentFramesCarryMessage` | src/main/kotlin/Application.kt:413 | every frame a loop sends carries the one encoded message and goes to a registered session that did not fail |
| `PlayersApi.SavePlayer` | src/main/kotlin/Application.kt:291-304 | the saved player is the request plus the sequence's next value as its id, which is not yet in the store; the store gains exactly that row and the sequence advances by one; the insert fails once the id sequence has passed the largest `Int` |
| `PlayersApi.PostPlayer` | src/main/kotlin/Application.kt:407-421 | 400 exactly when the body is no NewPlayerDTO, with no change and no send; a full id sequence gives 500 with no change; otherwise the row is inserted under the next id, the sequence advances by one, and the frames are the first loop's, followed by the second loop's when the first completed; 201 exactly when the body decodes, the id has room and no session fails in either loop, with the saved request plus that id and the whole registry's PlayerAdded frames twice over; every 500 has no body |
| `PlayersApi.PostSendsEachSessionTwice` | src/main/kotlin/Application.kt:411-418 | a successful POST sends every registered session exactly two frames, each read by the page as PlayerAdded of the saved player |
| `PlayersApi.PutPlayer` | src/main/kotlin/Application.kt:423-452 | a non-integer id gives 400 "Invalid ID"; a valid id with a body that is no NewPlayerDTO gives 400 with no change; 404 "Player not found" exactly when the id is valid, the body decodes and no row has the id; none of these changes or sends anything; with an existing row, the row is overwritten and the frames are the send loop's PlayerUpdated(path id, request fields) frames up to the first failing session; then 200 with that player as the body when no session fails, and 500 with no body when one does |
| `PlayersApi.PutSendsEachSessionOnce` | src/main/kotlin/Application.kt:444-449 | a successful PUT sends every registered session exactly one frame, read by the page as PlayerUpdated of the new snapshot |
| `PlayersApi.DeletePlayer` | src/main/kotlin/Application.kt:454-469 | a non-integer id gives 400 with no change and no send; otherwise the row, if any, is removed, the id sequence is left where it was, and PlayerDeleted(id) goes to the sessions up to the first failing one; then 200 when no session fails and 500 when one does; the status is always 200, 400 or 500, never 404 |
| `PlayersApi.DeletedIdNotReused` | src/main/kotlin/Application.kt:44 | after a DELETE, the player a successful POST saves never gets the deleted id, or any id the store held before |
| `PlayersApi.DeleteMissingStillBroadcasts` | src/main/kotlin/Application.kt:460-468 | deleting an id with no row leaves the store unchanged, still sends one frame to every session, and answers 200 |
| `Dashboard.Reduce` | src/main/resources/static/js/admin.js:112-142 | PlayerAdded keeps the list as a prefix, adds at most one entry and leaves the id listed; PlayerDeleted leaves no entry with the id; PlayerUpdated keeps the ids in place; any other message changes nothing |
| `Dashboard.RemoveId` | src/main/resources/static/js/admin.js:124 | the filter keeps exactly the entries whose id differs, and never grows the list |
| `Dashboard.ReplaceId` | src/main/resources/static/js/admin.js:133-135 | the map replaces each entry with a matching id by the new snapshot, and leaves the length and every other entry unchanged |
| `Dashboard.AddedAppendsOnlyNewIds` | src/main/resources/static/js/admin.js:113-117 | PlayerAdded appends the player exactly when no entry has its id, and leaves the list alone otherwise |
| `Dashboard.AddedIdempotent` | src/main/resources/static/js/admin.js:113-117 | handling the same PlayerAdded a second time changes nothing more |
| `Dashboard.RemoveIdDistributes` | src/main/resources/static/js/admin.js:124 | PlayerDeleted keeps the surviving entries in their original order |
| `Dashboard.RemoveAbsentId` | src/main/resources/static/js/admin.js:124 | PlayerDeleted of an id no entry has leaves the list unchanged |
| `Dashboard.RemovePresentId` | src/main/resources/static/js/admin.js:124 | PlayerDeleted of a present id shortens the list and leaves no entry with that id |
| `Dashboard.RemoveIdKeepsMultiset` | src/main/resources/static/js/admin.js:124 | the filtered list is a sub-multiset of the original |
| `Dashboard.ReplaceKeepsIds` | src/main/resources/static/js/admin.js:133-135 | PlayerUpdated keeps the sequence of ids unchanged |
| `Dashboard.ReplaceAbsentId` | src/main/resources/static/js/admin.js:133-135 | PlayerUpdated of an absent id leaves the list unchanged |
| `Dashboard.ReplaceIdempotent` | src/main/resources/static/js/admin.js:133-135 | handling the same PlayerUpdated a second time changes nothing more |
| `Dashboard.IgnoredIsNoOp` | src/main/resources/static/js/admin.js:140-141 | a message of unknown type leaves `playersData` unchanged |
| `Dashboard.ReducePreservesUniqueIds` | src/main/resources/static/js/admin.js:112-142 | if the ids in `playersData` are distinct before an event, they are distinct after it |
| `Dashboard.RemoveIdKeepsUnique` | src/main/resources/static/js/admin.js:124 | filtering keeps ids distinct |
| `Dashboard.SortById` | src/main/resources/static/js/admin.js:394 | the sorted copy is in ascending id order and holds the same entries as the list |
| `Dashboard.SortKeepsUnique` | src/main/resources/static/js/admin.js:394 | the sorted copy of a list with distinct ids has distinct ids |
| `Dashboard.SortedPermutationUnique` | src/main/resources/static/js/admin.js:394 | two id-sorted lists with the same entries and distinct ids are equal, so the sort has one possible result |
| `Dashboard.Render` | src/main/resources/static/js/admin.js:382-394 | an empty list renders the placeholder row; otherwise the rows are the list's entries in ascending id order |
| `Dashboard.RenderIgnoresOrder` | src/main/resources/static/js/admin.js:388-394 | with distinct ids, the table depends only on which players are listed, not on their order in `playersData` |
| `Dashboard.HandleEvent` | src/main/resources/static/js/admin.js:109-146 | the new list is the old list reduced by the message's event, the table drawn is the rendering of the new list, and distinct ids stay distinct |
| `Dashboard.Trim` | src/main/resources/static/js/admin.js:207 | `trim` returns the text between the leading and the trailing white space, and the result neither starts nor ends with white space |
| `Dashboard.TrimEmptyIffWhitespace` | src/main/resources/static/js/admin.js:207-214 | a field trims to the empty string exactly when it is all white space |
| `Dashboard.LeadingDigits` | src/main/resources/static/js/admin.js:216 | `parseInt` reads the longest run of digits at the front of the text |
| `Dashboard.ParseIntJs` | src/main/resources/static/js/admin.js:216 | `parseInt` of text starting with a digit is a number, not negative; of empty text, or text starting with neither a digit nor a sign, NaN; a negative result needs a leading '-' |
| `Dashboard.ParseIntJsShow` | src/main/resources/static/js/admin.js:216 | `parseInt` reads back the decimal text of every integer |
| `Dashboard.AgeJson` | src/main/resources/static/js/admin.js:208-216 | the age the forms send, checked against the field's text by `BlankAgeIsNull`, `PaddedNumberAge` and `PaddedWordAge`: null for a blank field, the integer a padded decimal text denotes, and null for a word |
| `Dashboard.TrimPadded` | src/main/resources/static/js/admin.js:208 | white space around a text that neither starts nor ends with white space is exactly what `trim` removes |
| `Dashboard.BlankAgeIsNull` | src/main/resources/static/js/admin.js:208-216 | an age field of nothing but white space sends null |
| `Dashboard.PaddedNumberAge` | src/main/resources/static/js/admin.js:208-216 | an age field holding any integer's decimal text, with white space around it, sends that integer |
| `Dashboard.PaddedWordAge` | src/main/resources/static/js/admin.js:208-216 | an age field whose text starts with neither a digit nor a sign sends null, with or without white space around it |
| `Dashboard.SubmitAdd` | src/main/resources/static/js/admin.js:207-221 | a blank name is rejected and nothing is sent; otherwise the body holds the trimmed name and the age, and no email |
| `Dashboard.SubmitEdit` | src/main/resources/static/js/admin.js:327-345 | nothing happens without an edited player; a blank name is rejected; otherwise the body for the edited id holds the trimmed name, the age as the add form sends it, and no email |
| `Dashboard.FormBodiesLackEmail` | src/main/resources/static/js/admin.js:218-221 | neither form's body can be read as a NewPlayerDTO |
| `Dashboard.SubmitAddWithEmail` | src/main/resources/static/js/admin.js:207-221 | the corrected add form: a blank name is rejected, and any other body decodes to the trimmed name, the age and the email |
| `Dashboard.SubmitEditWithEmail` | src/main/resources/static/js/admin.js:327-345 | the corrected edit form: the body, sent for the edited id, decodes to the trimmed name, the age and the player's email |
| `Standings.TeamMatches` | src/main/kotlin/Application.kt:482-485 | the selected rows are exactly the finished matches the team plays in, home or guest, in table order |
| `Standings.TeamMatchesKeepsCopies` | src/main/kotlin/Application.kt:482-485 | the select keeps every copy of a counted row and no copy of any other row, so equal rows still count as separate matches |
| `Standings.UncountedRowIgnored` | src/main/kotlin/Application.kt:482-485 | a row that is not finished, or that the team does not play in, changes nothing |
| `Standings.OutcomeByScores` | src/main/kotlin/Application.kt:493-502 | for the team, a win is a strictly higher own score, a draw an equal score and a loss a lower one |
| `Standings.OutcomeOpposite` | src/main/kotlin/Application.kt:493-502 | between two different teams, one team's win is the other's loss and a draw is a draw for both |
| `Standings.Tally` | src/main/kotlin/Application.kt:487-503 | wins, draws and losses add up to the number of matches counted; with `TallySingle` and `TallyAppend`, each match adds one to the counter of its `Outcome` |
| `Standings.TallySingle` | src/main/kotlin/Application.kt:491-502 | one match adds one to exactly the counter of its result: wins for a win, draws for a draw, losses for a loss |
| `Standings.TallyAppend` | src/main/kotlin/Application.kt:491-503 | the tally of two runs of rows is the sum of their tallies |
| `Standings.TallyOrderFree` | src/main/kotlin/Application.kt:482-503 | any two orderings of the same rows, copies included, give the same record, so it does not depend on the order in which the database returns them |
| `Standings.MatchPoints` | src/main/kotlin/Application.kt:497-505 | one match between two different teams gives them two points between them |
| `Standings.HeadToHeadPoints` | src/main/kotlin/Application.kt:491-505 | over any matches between two teams, their points add up to twice the number of matches |
| `Standings.Standing` | src/main/kotlin/Application.kt:487-530 | the match count and the counters come from the team's finished matches and add up; points agree with 2·wins + draws modulo 2^32 and equal it when it fits in an `Int` |
| `SetPlay.Points` | src/main/kotlin/Application.kt:171-174 | in eight tiers out of eleven one side has 11 points; with in-range draws the home side scores more exactly when the coin gives the winner's points first |
| `SetPlay.PointsValid` | src/main/kotlin/Application.kt:171-175 | every in-range draw gives a valid set score: 11 against 0 to 9, or w in 12 to 15 against w-2, so the sides always differ |
| `SetPlay.PointsReachEveryScore` | src/main/kotlin/Application.kt:171-175 | every such set score can be drawn |
| `SetPlay.GenerateSetScore` | src/main/kotlin/Application.kt:171-175 | the text drawn splits and parses back to the drawn score |
| `SetPlay.ReadFormat` | src/main/kotlin/Application.kt:174-185 | a "home-guest" text splits at '-' into exactly the two numbers, and they parse back |
| `SetPlay.ReadScore` | src/main/kotlin/Application.kt:184-185 | a text without '-' never reads as a score, and the two numbers read are `Int`s |
| `SetPlay.PlaySet` | src/main/kotlin/Application.kt:183-186 | one loop pass counts the set for the home player exactly when the home side scored more |
| `SetPlay.PlaySets` | src/main/kotlin/Application.kt:178-187 | the loop ends at the first set after which one player has three sets, the other fewer, after at most five sets; the recorded scores are those of the sets played, in order |
| `SetPlay.PlayedOutStopsAtFirstDecision` | src/main/kotlin/Application.kt:182-187 | a played-out match has 3 to 5 sets, and no player had three sets at any earlier point |
| `SetPlay.PlayIndividualMatch` | src/main/kotlin/Application.kt:177-202 | the row's scores equal the set counts, 3 to 5 sets are played and the match is played out; names are "User " and the id; the set texts are the played scores joined with ", " |
| `EndToEnd.DeliverUniform` | src/main/resources/static/js/admin.js:109-146 | a page that receives frames all carrying one message handles that message once per frame addressed to it |
| `EndToEnd.PostAddsPlayerOnce` | src/main/kotlin/Application.kt:413-418 | a successful POST reaches a connected page twice; the page appends the new player once if its id is new, and otherwise changes nothing |
| `EndToEnd.DeleteReachesPage` | src/main/kotlin/Application.kt:460-466 | after a DELETE with no failing session, each connected page has dropped exactly the entries with that id |
| `EndToEnd.AddFormAsWrittenRefused` | src/main/resources/static/js/admin.js:218-221 | whatever the add form sends is refused with 400; the store is unchanged and nothing is broadcast |
| `EndToEnd.EditFormAsWrittenRefused` | src/main/resources/static/js/admin.js:342-345 | whatever the edit form sends for the edited player reaches PUT with an id that reads back, and is refused with 400; the store is unchanged and nothing is broadcast |
| `EndToEnd.AddFormWithEmailSaved` | src/main/resources/static/js/admin.js:207-221 | with the email added, the add form's body is saved with the trimmed name and the age, answering 201 |
| `EndToEnd.EditFormWithEmailSaved` | src/main/resources/static/js/admin.js:330-358 | with the email added, the edit form overwrites the edited player's row and the answer is 200 |

## Left out

- Thread safety of `clients`. It is an unsynchronised list touched by concurrent handlers, and
  the code gives it no concurrency guarantee. The model applies registry operations and
  requests one at a time.
- The database:
  - Exposed tables, transactions, the connection pool and schema creation are not modelled.
  - The players table is a map from id to request with a serial id counter.
  - A failed or rolled-back transaction is not modelled. The only database failure modelled
    is the id sequence passing the largest `Int`.
  - `PlayersApi.PostPlayer` and `PlayersApi.PutPlayer` do not model the column lengths:
    `name` is `varchar(100)` and `email` is `varchar(150)` (src/main/kotlin/Application.kt:45-47). A longer
    value makes the insert or update throw, so the server answers 500 and saves nothing.
    The model saves the row and answers 201 or 200.
  - `DatabaseSchema.kt` is not part of this model.
- Firebase initialisation, FCM sending and the FCM token endpoints. They are an external
  service called fire-and-forget.
- Byte-level JSON. Documents are trees (`Json.JValue`). Key order, whitespace, escaping and
  JavaScript number precision are not modelled.
- Randomness. The draws of `generateSetScore` are parameters restricted to the ranges the
  code draws from. `playIndividualMatch` takes at least five draws, because a match never
  needs more.
- `seedDatabaseIfNeeded`'s fixture inserts are left out.
  The `/matches` query projection and GET `/players` are left out too. Both are database reads
  with no logic beyond field copying.
- The admin page's DOM updates, status texts, fetch calls, WebSocket reconnection and ping
  timers, the FCM token registration, and logging.
- `Dtos.DecodeNewPlayer`, and every other decoder, does not model the lenient mode of Ktor's
  default `json()` configuration. That mode reads an unquoted literal such as `5` as a string
  property, and kotlinx.serialization also reads a quoted integer such as `"30"` as an `Int`.
  So `{"name": 5, "age": "30", "email": "e"}` is saved by the server but refused by
  `PlayersApi.PostPlayer` here. The JSON tree does not keep the literal's text, which such
  readings need. The re-encoding clause of `DecodeNewPlayer` holds for the strictly typed
  bodies the model accepts.
- `Events.Classify` reads a player payload only when it has the four properties of a
  `PlayerDTO` with their types, and otherwise ignores the event. The page itself does not
  check the payload (admin.js:113-135). It uses only `player.id` and keeps the whole object,
  so a PlayerAdded whose player lacks `email` or has a string `age` is appended there. A
  `"player": null` makes the page throw before it redraws the table. `Events.ClassifyEncode`
  shows that this server never sends such frames.
- `Numbers.ParseIntOrNull` accepts only ASCII digits, while Kotlin's `toIntOrNull` also
  accepts other Unicode decimal digits.
- `Dashboard.ParseIntJs` and `Dashboard.AgeJson` do not model `parseInt`'s results past
  2^53, or the exponent notation of very large numbers. Such an age is in any case out of
  `Int` range, so the server refuses it.
- `Standings.Standing` requires the team to have fewer than 2^31 finished matches. The
  source collects them in the Kotlin list `teamMatches`, which cannot be longer, and the
  bound keeps the match count and the counters within `Int`.
- Other behaviour of the repository that this model does not share with a cleaner design:
  - POST sends its event twice.
  - A failing send is not isolated from the remaining sessions.
  - DELETE of a missing id answers 200 and broadcasts.
  - Points are two per win, whatever the comment on that line says.
  - The code is modelled in each case; the cleaner variants are not.

## Findings

| source | as written | input that shows it | evidently intended | confidence | as-written member | corrected member |
|---|---|---|---|---|---|---|
| src/main/resources/static/js/admin.js:218-221 | `addPlayer` sends `{name, age}` only, but `NewPlayerDTO.email` has no default, so `call.receive<NewPlayerDTO>()` refuses the body and POST answers 400 | name field "Ann", age field "" gives the body `{"name": "Ann", "age": null}`, which has no "email" | the form sends an email along with the name and age, so the player is saved | not executed | `EndToEnd.AddFormAsWrittenRefused` | `EndToEnd.AddFormWithEmailSaved` |
| src/main/resources/static/js/admin.js:342-345 | `saveEdit` sends `{name, age}` only, so PUT refuses every edit with 400 | editing player 1 with name "Bob" sends `{"name": "Bob", "age": null}` | the edit keeps the player's email in the body | not executed | `EndToEnd.EditFormAsWrittenRefused` | `EndToEnd.EditFormWithEmailSaved` |

=== FILE: dashboard.dfy ===
/**
 * The admin dashboard's player list (static/js/admin.js): the `handleEvent`
 * reducer over `playersData`, the sorted table `renderPlayers` draws, and the
 * validation `addPlayer` and `saveEdit` apply before sending a request.
 */
module Dashboard {
  import opened Wrappers
  import opened Numbers
  import opened Json
  import opened Dtos
  import opened Events

  // ---------------------------------------------------------------- reducer

  predicate HasId(data: seq<PlayerDTO>, id: Int32) {
    exists i :: 0 <= i < |data| && data[i].id == id
  }

  /** No two entries share an id. */
  predicate UniqueIds(data: seq<PlayerDTO>) {
    forall i, j :: 0 <= i < j < |data| ==> data[i].id != data[j].id
  }

  function Ids(data: seq<PlayerDTO>): (ids: seq<Int32>)
    ensures |ids| == |data| && forall i :: 0 <= i < |data| ==> ids[i] == data[i].id
  {
    if |data| == 0 then [] else [data[0].id] + Ids(data[1..])
  }

  /** `playersData.filter(p => p.id !== id)`. */
  function RemoveId(data: seq<PlayerDTO>, id: Int32): (r: seq<PlayerDTO>)
    ensures |r| <= |data|
    ensures forall p :: p in r <==> p in data && p.id != id
  {
    if |data| == 0 then []
    else if data[0].id == id then RemoveId(data[1..], id)
    else [data[0]] + RemoveId(data[1..], id)
  }

  /** `playersData.map(p => p.id === u.id ? u : p)`. */
  function ReplaceId(data: seq<PlayerDTO>, u: PlayerDTO): (r: seq<PlayerDTO>)
    ensures |r| == |data|
    ensures forall i :: 0 <= i < |data| ==> r[i] == (if data[i].id == u.id then u else data[i])
  {
    if |data| == 0 then [] else [if data[0].id == u.id then u else data[0]] + ReplaceId(data[1..], u)
  }

  /** The state change `handleEvent` makes for one message. */
  function Reduce(data: seq<PlayerDTO>, e: Incoming): (r: seq<PlayerDTO>)
    ensures e.Added? ==> data <= r && |r| <= |data| + 1 && HasId(r, e.player.id)
    ensures e.Deleted? ==> |r| <= |data| && !HasId(r, e.id)
    ensures e.Updated? ==> Ids(r) == Ids(data)
    ensures e.Ignored? ==> r == data
  {
    match e
    case Added(p) =>
      if HasId(data, p.id) then data
      else
        assert (data + [p])[|data|] == p;
        data + [p]
    case Deleted(id) => RemoveId(data, id)
    case Updated(u) => ReplaceId(data, u)
    case Ignored => data
  }

  /** PlayerAdded appends the player exactly when no entry has its id. */
  lemma AddedAppendsOnlyNewIds(data: seq<PlayerDTO>, p: PlayerDTO)
    ensures !HasId(data, p.id) ==> Reduce(data, Added(p)) == data + [p]
    ensures HasId(data, p.id) ==> Reduce(data, Added(p)) == data
    ensures HasId(Reduce(data, Added(p)), p.id)
  {
    if !HasId(data, p.id) {
      assert (data + [p])[|data|] == p;
    }
  }

  /** Receiving the same PlayerAdded again changes nothing more. */
  lemma AddedIdempotent(data: seq<PlayerDTO>, p: PlayerDTO)
    ensures Reduce(Reduce(data, Added(p)), Added(p)) == Reduce(data, Added(p))
  {
    AddedAppendsOnlyNewIds(data, p);
  }

  /** Filtering keeps the surviving entries in their original order. */
  lemma {:induction false} RemoveIdDistributes(a: seq<PlayerDTO>, b: seq<PlayerDTO>, id: Int32)
    ensures RemoveId(a + b, id) == RemoveId(a, id) + RemoveId(b, id)
  {
    if |a| == 0 {
      assert a + b == b;
    } else {
      assert (a + b)[0] == a[0] && (a + b)[1..] == a[1..] + b;
      RemoveIdDistributes(a[1..], b, id);
    }
  }

  /** PlayerDeleted for an id no entry has is a no-op. */
  lemma {:induction false} RemoveAbsentId(data: seq<PlayerDTO>, id: Int32)
    requires !HasId(data, id)
    ensures RemoveId(data, id) == data
  {
    if |data| > 0 {
      assert forall i :: 0 <= i < |data[1..]| ==> data[1..][i] == data[i + 1];
      RemoveAbsentId(data[1..], id);
      assert [data[0]] + data[1..] == data;
    }
  }

  /** PlayerDeleted of a present id shortens the list. */
  lemma RemovePresentId(data: seq<PlayerDTO>, id: Int32)
    requires HasId(data, id)
    ensures |RemoveId(data, id)| < |data| && !HasId(RemoveId(data, id), id)
  {
    var r := RemoveId(data, id);
    RemoveIdKeepsMultiset(data, id);
    forall k | 0 <= k < |r| ensures r[k].id != id {
      assert r[k] in r;
    }
  }

  /** Removal never adds: the result is a sub-multiset of the input. */
  lemma {:induction false} RemoveIdKeepsMultiset(data: seq<PlayerDTO>, id: Int32)
    ensures multiset(RemoveId(data, id)) <= multiset(data)
    ensures (exists i :: 0 <= i < |data| && data[i].id == id) ==> |RemoveId(data, id)| < |data|
  {
    if |data| > 0 {
      RemoveIdKeepsMultiset(data[1..], id);
      assert data == [data[0]] + data[1..];
      if data[0].id != id {
        if exists i :: 0 <= i < |data| && data[i].id == id {
          var i :| 0 <= i < |data| && data[i].id == id;
          assert data[1..][i - 1].id == id;
        }
      }
    }
  }

  /** PlayerUpdated keeps every entry's id, so it keeps the list's id sequence. */
  lemma ReplaceKeepsIds(data: seq<PlayerDTO>, u: PlayerDTO)
    ensures Ids(ReplaceId(data, u)) == Ids(data)
  {
  }

  /** PlayerUpdated for an id no entry has is a no-op. */
  lemma ReplaceAbsentId(data: seq<PlayerDTO>, u: PlayerDTO)
    requires !HasId(data, u.id)
    ensures ReplaceId(data, u) == data
  {
  }

  /** Receiving the same PlayerUpdated again changes nothing more. */
  lemma ReplaceIdempotent(data: seq<PlayerDTO>, u: PlayerDTO)
    ensures ReplaceId(ReplaceId(data, u), u) == ReplaceId(data, u)
  {
  }

  /** An ignored message leaves the list as it was. */
  lemma IgnoredIsNoOp(data: seq<PlayerDTO>, v: JValue)
    requires Classify(v) == Ignored
    ensures Reduce(data, Classify(v)) == data
  {
  }

  /** Distinct ids before any message means distinct ids after it. */
  lemma ReducePreservesUniqueIds(data: seq<PlayerDTO>, e: Incoming)
    requires UniqueIds(data)
    ensures UniqueIds(Reduce(data, e))
  {
    match e
    case Added(p) =>
      if !HasId(data, p.id) {
        var r := data + [p];
        forall i, j | 0 <= i < j < |r| ensures r[i].id != r[j].id {
          if j == |data| { assert r[i] == data[i]; }
        }
      }
    case Deleted(id) => RemoveIdKeepsUnique(data, id);
    case Updated(u) =>
      var r := ReplaceId(data, u);
      forall i, j | 0 <= i < j < |r| ensures r[i].id != r[j].id {
        assert r[i].id == data[i].id && r[j].id == data[j].id;
      }
    case Ignored =>
  }

  /** Putting in front an entry whose id the rest does not hold keeps the ids unique. */
  lemma ConsUnique(x: PlayerDTO, s: seq<PlayerDTO>)
    requires UniqueIds(s) && forall p :: p in s ==> p.id != x.id
    ensures UniqueIds([x] + s)
  {
    var r := [x] + s;
    forall i, j | 0 <= i < j < |r| ensures r[i].id != r[j].id {
      assert r[j] == s[j - 1];
      if i > 0 {
        assert r[i] == s[i - 1];
      }
    }
  }

  lemma {:induction false} RemoveIdKeepsUnique(data: seq<PlayerDTO>, id: Int32)
    requires UniqueIds(data)
    ensures UniqueIds(RemoveId(data, id))
  {
    if |data| > 0 {
      var tail := data[1..];
      assert UniqueIds(tail);
      RemoveIdKeepsUnique(tail, id);
      if data[0].id != id {
        var rest := RemoveId(tail, id);
        forall p | p in rest ensures p.id != data[0].id {
          var k :| 0 <= k < |tail| && tail[k] == p;
          assert data[k + 1] == p;
        }
        ConsUnique(data[0], rest);
      }
    }
  }

  // ---------------------------------------------------------------- table

  predicate SortedById(s: seq<PlayerDTO>) {
    forall i, j :: 0 <= i < j < |s| ==> s[i].id <= s[j].id
  }

  /** Every id in `s` is at least `b`. */
  predicate AtLeast(b: Int32, s: seq<PlayerDTO>) {
    forall k :: 0 <= k < |s| ==> b <= s[k].id
  }

  lemma ConsSorted(a: PlayerDTO, s: seq<PlayerDTO>)
    requires SortedById(s) && AtLeast(a.id, s)
    ensures SortedById([a] + s)
  {
    var r := [a] + s;
    forall i, j | 0 <= i < j < |r| ensures r[i].id <= r[j].id {
      assert r[j] == s[j - 1];
      if i > 0 { assert r[i] == s[i - 1]; }
    }
  }

  lemma TailSorted(s: seq<PlayerDTO>)
    requires |s| > 0 && SortedById(s)
    ensures SortedById(s[1..]) && AtLeast(s[0].id, s[1..])
    ensures UniqueIds(s) ==> UniqueIds(s[1..])
  {
    assert forall k :: 0 <= k < |s[1..]| ==> s[1..][k] == s[k + 1];
  }

  lemma MultisetCons(s: seq<PlayerDTO>)
    requires |s| > 0
    ensures multiset(s) == multiset{s[0]} + multiset(s[1..])
  {
    assert s == [s[0]] + s[1..];
  }

  /** Inserts `p` before the first entry whose id is not smaller. */
  function InsertById(p: PlayerDTO, s: seq<PlayerDTO>): seq<PlayerDTO> {
    if |s| == 0 then [p]
    else if p.id <= s[0].id then [p] + s
    else [s[0]] + InsertById(p, s[1..])
  }

  /** Insertion adds `p` and keeps every entry. */
  lemma {:induction false} InsertByIdElements(p: PlayerDTO, s: seq<PlayerDTO>)
    ensures multiset(InsertById(p, s)) == multiset(s) + multiset{p}
    ensures forall x :: x in InsertById(p, s) <==> x == p || x in s
  {
    var r := InsertById(p, s);
    if |s| > 0 && p.id > s[0].id {
      var rest := InsertById(p, s[1..]);
      assert r == [s[0]] + rest;
      InsertByIdElements(p, s[1..]);
      MultisetCons(s);
      assert multiset(r) == multiset{s[0]} + multiset(rest);
    } else {
      assert r == [p] + s;
    }
    assert forall x :: x in r <==> x in multiset(r);
    assert forall x :: x in s <==> x in multiset(s);
  }

  /** Insertion into a sorted list keeps it sorted. */
  lemma {:induction false} InsertByIdSorted(p: PlayerDTO, s: seq<PlayerDTO>)
    requires SortedById(s)
    ensures SortedById(InsertById(p, s))
  {
    if |s| == 0 {
    } else if p.id <= s[0].id {
      assert AtLeast(p.id, s) by { assert forall k :: 0 < k < |s| ==> s[0].id <= s[k].id; }
      ConsSorted(p, s);
    } else {
      var tail := s[1..];
      TailSorted(s);
      InsertByIdSorted(p, tail);
      InsertByIdElements(p, tail);
      var rest := InsertById(p, tail);
      forall k | 0 <= k < |rest| ensures s[0].id <= rest[k].id {
        assert rest[k] in rest;
        if rest[k] != p {
          var m :| 0 <= m < |tail| && tail[m] == rest[k];
        }
      }
      ConsSorted(s[0], rest);
    }
  }

  /** `[...players].sort((a, b) => a.id - b.id)`: ascending ids, same entries. */
  function SortById(s: seq<PlayerDTO>): (r: seq<PlayerDTO>)
    ensures SortedById(r) && multiset(r) == multiset(s)
  {
    if |s| == 0 then []
    else
      var t := SortById(s[1..]);
      InsertByIdSorted(s[0], t);
      InsertByIdElements(s[0], t);
      MultisetCons(s);
      InsertById(s[0], t)
  }

  /** The table body: a placeholder row for an empty list, else one row per player. */
  datatype Table = Placeholder | Rows(rows: seq<PlayerDTO>)

  /** `renderPlayers`: works on a sorted copy and leaves the list itself alone. */
  function Render(players: seq<PlayerDTO>): (t: Table)
    ensures t.Placeholder? <==> |players| == 0
    ensures t.Rows? ==> SortedById(t.rows) && multiset(t.rows) == multiset(players)
  {
    if |players| == 0 then Placeholder else Rows(SortById(players))
  }

  /** Sorted lists with the same entries and distinct ids start with the same entry. */
  lemma SortedSameHead(x: seq<PlayerDTO>, y: seq<PlayerDTO>)
    requires SortedById(x) && SortedById(y) && multiset(x) == multiset(y) && UniqueIds(x)
    requires |x| > 0
    ensures |y| > 0 && x[0] == y[0]
  {
    assert x[0] in multiset(y);
    var k :| 0 <= k < |y| && y[k] == x[0];
    assert y[0] in multiset(x);
    var j :| 0 <= j < |x| && x[j] == y[0];
    assert x[0].id <= x[j].id && y[0].id <= y[k].id;
  }

  lemma SameTails(x: seq<PlayerDTO>, y: seq<PlayerDTO>)
    requires |x| > 0 && |y| > 0 && x[0] == y[0] && multiset(x) == multiset(y)
    ensures multiset(x[1..]) == multiset(y[1..])
  {
    MultisetCons(x);
    MultisetCons(y);
    assert multiset(x[1..]) == multiset(x) - multiset{x[0]};
    assert multiset(y[1..]) == multiset(y) - multiset{y[0]};
  }

  /** Two sorted lists holding the same entries, with distinct ids, are equal. */
  lemma {:induction false} SortedPermutationUnique(x: seq<PlayerDTO>, y: seq<PlayerDTO>)
    requires SortedById(x) && SortedById(y) && multiset(x) == multiset(y) && UniqueIds(x)
    ensures x == y
  {
    if |x| == 0 {
      assert |y| == 0 by { assert |multiset(x)| == |multiset(y)|; }
    } else {
      SortedSameHead(x, y);
      SameTails(x, y);
      TailSorted(x);
      TailSorted(y);
      SortedPermutationUnique(x[1..], y[1..]);
      assert x == [x[0]] + x[1..] && y == [y[0]] + y[1..];
    }
  }

  /** With distinct ids the table depends only on which players are listed, not on their order. */
  lemma RenderIgnoresOrder(a: seq<PlayerDTO>, b: seq<PlayerDTO>)
    requires multiset(a) == multiset(b) && UniqueIds(a)
    ensures Render(a) == Render(b)
  {
    assert |a| == |b| by { assert |multiset(a)| == |multiset(b)|; }
    if |a| > 0 {
      SortKeepsUnique(a);
      SortedPermutationUnique(SortById(a), SortById(b));
    }
  }

  /** Inserting a player with a new id keeps ids distinct. */
  lemma {:induction false} InsertKeepsUnique(p: PlayerDTO, s: seq<PlayerDTO>)
    requires UniqueIds(s) && !HasId(s, p.id)
    ensures UniqueIds(InsertById(p, s))
  {
    if |s| == 0 {
    } else if p.id <= s[0].id {
      var r := [p] + s;
      forall i, j | 0 <= i < j < |r| ensures r[i].id != r[j].id {
        assert r[j] == s[j - 1];
        if i > 0 { assert r[i] == s[i - 1]; }
      }
    } else {
      var tail := s[1..];
      assert forall k :: 0 <= k < |tail| ==> tail[k] == s[k + 1];
      InsertKeepsUnique(p, tail);
      InsertByIdElements(p, tail);
      var rest := InsertById(p, tail);
      var r := [s[0]] + rest;
      forall i, j | 0 <= i < j < |r| ensures r[i].id != r[j].id {
        assert r[j] == rest[j - 1] && r[j] in rest;
        if i > 0 {
          assert r[i] == rest[i - 1];
        } else if r[j] != p {
          var m :| 0 <= m < |tail| && tail[m] == r[j];
          assert s[m + 1] == r[j];
        }
      }
    }
  }

  /** Sorting keeps ids distinct. */
  lemma {:induction false} SortKeepsUnique(s: seq<PlayerDTO>)
    requires UniqueIds(s)
    ensures UniqueIds(SortById(s))
  {
    if |s| > 0 {
      var tail := s[1..];
      assert forall k :: 0 <= k < |tail| ==> tail[k] == s[k + 1];
      SortKeepsUnique(tail);
      var t := SortById(tail);
      forall k | 0 <= k < |t| ensures t[k].id != s[0].id {
        assert t[k] in multiset(t);
        var m :| 0 <= m < |tail| && tail[m] == t[k];
        assert s[m + 1] == t[k];
      }
      InsertKeepsUnique(s[0], t);
    }
  }

  /** `handleEvent`: the new list, and the table drawn from it. */
  datatype View = View(playersData: seq<PlayerDTO>, table: Table)

  function HandleEvent(data: seq<PlayerDTO>, message: JValue): (v: View)
    ensures v.playersData == Reduce(data, Classify(message))
    ensures v.table == Render(v.playersData)
    ensures UniqueIds(data) ==> UniqueIds(v.playersData)
  {
    var next := Reduce(data, Classify(message));
    assert UniqueIds(data) ==> UniqueIds(next) by {
      if UniqueIds(data) { ReducePreservesUniqueIds(data, Classify(message)); }
    }
    View(next, Render(next))
  }

  // ---------------------------------------------------------------- forms

  /** The characters `String.prototype.trim` removes: white space and line terminators. */
  predicate IsJsWhitespace(c: char) {
    || c == '\t' || c == '\n' || c == '\U{000B}' || c == '\U{000C}' || c == '\r' || c == ' '
    || c == '\U{00A0}' || c == '\U{1680}' || ('\U{2000}' <= c <= '\U{200A}')
    || c == '\U{2028}' || c == '\U{2029}' || c == '\U{202F}' || c == '\U{205F}'
    || c == '\U{3000}' || c == '\U{FEFF}'
  }

  predicate AllWhitespace(s: string) {
    forall i :: 0 <= i < |s| ==> IsJsWhitespace(s[i])
  }

  /** Number of white-space characters at the front of `s`. */
  function LeadingSpace(s: string): (k: nat)
    ensures k <= |s| && AllWhitespace(s[..k])
    ensures k < |s| ==> !IsJsWhitespace(s[k])
  {
    if |s| > 0 && IsJsWhitespace(s[0]) then
      var k := LeadingSpace(s[1..]);
      assert s[..k + 1] == [s[0]] + s[1..][..k];
      k + 1
    else 0
  }

  /** Length of `s` without its trailing white space. */
  function TrailingStart(s: string): (e: nat)
    ensures e <= |s| && AllWhitespace(s[e..])
    ensures e > 0 ==> !IsJsWhitespace(s[e - 1])
  {
    if |s| > 0 && IsJsWhitespace(s[|s| - 1]) then
      var e := TrailingStart(s[..|s| - 1]);
      assert s[e..] == s[..|s| - 1][e..] + [s[|s| - 1]];
      e
    else |s|
  }

  /** `String.prototype.trim`: the text between the leading and trailing white space. */
  function Trim(s: string): (r: string)
    ensures LeadingSpace(s) + |r| <= |s|
    ensures r == s[LeadingSpace(s)..LeadingSpace(s) + |r|]
    ensures AllWhitespace(s[..LeadingSpace(s)]) && AllWhitespace(s[LeadingSpace(s) + |r|..])
    ensures |r| > 0 ==> !IsJsWhitespace(r[0]) && !IsJsWhitespace(r[|r| - 1])
  {
    var k := LeadingSpace(s);
    var t := s[k..];
    var e := TrailingStart(t);
    assert t[e..] == s[k + e..];
    t[..e]
  }

  /** Text trims to nothing exactly when it is all white space. */
  lemma TrimEmptyIffWhitespace(s: string)
    ensures Trim(s) == "" <==> AllWhitespace(s)
  {
    var k := LeadingSpace(s);
    var r := Trim(s);
    if r == "" {
      assert k == |s|;
      forall i | 0 <= i < |s| ensures IsJsWhitespace(s[i]) {
        assert s[..k][i] == s[i];
      }
    } else {
      assert r[0] == s[k] && !IsJsWhitespace(s[k]);
    }
  }

  /** The longest run of digits at the front of `s`. */
  function LeadingDigits(s: string): (d: string)
    ensures AllDigits(d) && |d| <= |s| && d == s[..|d|]
    ensures |d| < |s| ==> !IsDigit(s[|d|])
  {
    if |s| > 0 && IsDigit(s[0]) then
      var d := LeadingDigits(s[1..]);
      assert [s[0]] + d == s[..|d| + 1];
      [s[0]] + d
    else ""
  }

  /**
   * `parseInt(text, 10)` on already-trimmed text: an optional sign and the
   * leading digits; None stands for NaN.
   */
  function ParseIntJs(s: string): (r: Option<int>)
    ensures |s| > 0 && IsDigit(s[0]) ==> r.Some? && r.value >= 0
    ensures |s| == 0 || (!IsDigit(s[0]) && s[0] != '-' && s[0] != '+') ==> r.None?
    ensures r.Some? && r.value < 0 ==> s[0] == '-'
  {
    var negative := |s| > 0 && s[0] == '-';
    var rest := if |s| > 0 && (s[0] == '-' || s[0] == '+') then s[1..] else s;
    var d := LeadingDigits(rest);
    if |d| == 0 then None
    else Some(if negative then -(DigitsValue(d) as int) else DigitsValue(d))
  }

  lemma {:induction false} LeadingDigitsOfDigits(s: string)
    requires AllDigits(s)
    ensures LeadingDigits(s) == s
  {
    if |s| > 0 {
      LeadingDigitsOfDigits(s[1..]);
    }
  }

  /** parseInt reads back every integer's decimal text. */
  lemma ParseIntJsShow(n: int)
    ensures ParseIntJs(Show(n)) == Some(n)
  {
    var s := Show(n);
    if n < 0 {
      assert s[0] == '-' && s[1..] == NatDigits(-n);
      LeadingDigitsOfDigits(NatDigits(-n));
      DigitsValueOfNatDigits(-n);
    } else {
      assert s == NatDigits(n) && s[0] != '-' && s[0] != '+';
      LeadingDigitsOfDigits(NatDigits(n));
      DigitsValueOfNatDigits(n);
    }
  }

  /** The `age` the forms send: null for a blank field, and null for NaN (JSON.stringify writes NaN as null). */
  function AgeJson(ageField: string): (v: JValue)
    ensures Trim(ageField) == "" ==> v == JNull
    ensures v.JInt? ==> ParseIntJs(Trim(ageField)) == Some(v.n)
    ensures forall n :: Trim(ageField) != "" && ParseIntJs(Trim(ageField)) == Some(n) ==> v == JInt(n)
    ensures Trim(ageField) != "" && ParseIntJs(Trim(ageField)).None? ==> v == JNull
  {
    var text := Trim(ageField);
    if text == "" then JNull
    else
      match ParseIntJs(text)
      case Some(n) => JInt(n)
      case None => JNull
  }

  /** Trimming removes exactly the white space padding a text that neither starts nor ends with it. */
  lemma TrimPadded(pre: string, t: string, post: string)
    requires AllWhitespace(pre) && AllWhitespace(post)
    requires |t| > 0 && !IsJsWhitespace(t[0]) && !IsJsWhitespace(t[|t| - 1])
    ensures Trim(pre + t + post) == t
  {
    var s := pre + t + post;
    var k := LeadingSpace(s);
    assert forall i :: 0 <= i < |pre| ==> s[i] == pre[i];
    assert forall i :: |pre| + |t| <= i < |s| ==> s[i] == post[i - |pre| - |t|];
    assert s[|pre|] == t[0] && s[|pre| + |t| - 1] == t[|t| - 1];
    assert k == |pre|;
    assert s[k..k + |t|] == t;
  }

  /** A decimal text ends with a digit, and so neither starts nor ends with white space. */
  lemma ShowUnpadded(n: int)
    ensures !IsJsWhitespace(Show(n)[0]) && !IsJsWhitespace(Show(n)[|Show(n)| - 1])
    ensures IsDigit(Show(n)[|Show(n)| - 1])
  {
    var d := NatDigits(if n < 0 then -n else n);
    assert Show(n)[|Show(n)| - 1] == d[|d| - 1];
  }

  /** A blank age field sends null. */
  lemma BlankAgeIsNull(ageField: string)
    requires AllWhitespace(ageField)
    ensures AgeJson(ageField) == JNull
  {
    TrimEmptyIffWhitespace(ageField);
  }

  /** An age field holding an integer's decimal text, padded with white space, sends that integer. */
  lemma PaddedNumberAge(pre: string, n: int, post: string)
    requires AllWhitespace(pre) && AllWhitespace(post)
    ensures AgeJson(pre + Show(n) + post) == JInt(n)
  {
    ShowUnpadded(n);
    TrimPadded(pre, Show(n), post);
    ParseIntJsShow(n);
  }

  /** An age field whose text starts with neither a digit nor a sign sends null. */
  lemma PaddedWordAge(pre: string, word: string, post: string)
    requires AllWhitespace(pre) && AllWhitespace(post)
    requires |word| > 0 && !IsJsWhitespace(word[|word| - 1])
    requires !IsJsWhitespace(word[0]) && !IsDigit(word[0]) && word[0] != '-' && word[0] != '+'
    ensures AgeJson(pre + word + post) == JNull
  {
    TrimPadded(pre, word, post);
  }

  /** What submitting a form does: nothing is sent, or one request body. */
  datatype Submission = Rejected | Request(body: JValue)

  /**
   * `addPlayer` as written: a name that is blank after trimming is rejected;
   * otherwise the body carries the trimmed name and the age, and nothing else.
   */
  function SubmitAdd(nameField: string, ageField: string): (r: Submission)
    ensures r.Rejected? <==> AllWhitespace(nameField)
    ensures r.Request? ==> Member(r.body, "name") == Some(JStr(Trim(nameField))) && Trim(nameField) != ""
    ensures r.Request? ==> Member(r.body, "age") == Some(AgeJson(ageField))
    ensures r.Request? ==> Member(r.body, "email").None?
  {
    TrimEmptyIffWhitespace(nameField);
    var name := Trim(nameField);
    if name == "" then Rejected
    else Request(JObj(map["name" := JStr(name), "age" := AgeJson(ageField)]))
  }

  /** What saving the edit form does; `NotEditing` when no player is being edited. */
  datatype EditSubmission = NotEditing | EditRejected | EditRequest(id: Int32, body: JValue)

  /** `saveEdit` as written: same validation as `addPlayer`, sent to the edited player's id. */
  function SubmitEdit(editing: Option<PlayerDTO>, nameField: string, ageField: string): (r: EditSubmission)
    ensures editing.None? <==> r.NotEditing?
    ensures editing.Some? ==> (r.EditRejected? <==> AllWhitespace(nameField))
    ensures r.EditRequest? ==> r.id == editing.value.id && Member(r.body, "email").None?
    ensures r.EditRequest? ==> Member(r.body, "name") == Some(JStr(Trim(nameField)))
    ensures r.EditRequest? ==> Member(r.body, "age") == Some(AgeJson(ageField))
  {
    match editing
    case None => NotEditing
    case Some(p) =>
      match SubmitAdd(nameField, ageField)
      case Rejected => EditRejected
      case Request(body) => EditRequest(p.id, body)
  }

  /**
   * Neither form's body can be read as a NewPlayerDTO: `email` is required
   * there and the forms never send it.
   */
  lemma FormBodiesLackEmail(nameField: string, ageField: string, editing: Option<PlayerDTO>)
    ensures SubmitAdd(nameField, ageField).Request? ==> DecodeNewPlayer(SubmitAdd(nameField, ageField).body).None?
    ensures SubmitEdit(editing, nameField, ageField).EditRequest? ==>
      DecodeNewPlayer(SubmitEdit(editing, nameField, ageField).body).None?
  {
  }

  /** The age as the server reads it: null, or an `Int` when the number fits. */
  predicate AgeFits(ageField: string) {
    AgeJson(ageField).JInt? ==> InInt32(AgeJson(ageField).n)
  }

  function AgeValue(ageField: string): Option<Int32>
    requires AgeFits(ageField)
  {
    match AgeJson(ageField)
    case JInt(n) => Some(n as Int32)
    case _ => None
  }

  /** `addPlayer` with the email the server requires added to the body. */
  function SubmitAddWithEmail(nameField: string, ageField: string, email: string): (r: Submission)
    ensures r.Rejected? <==> AllWhitespace(nameField)
    ensures r.Request? && AgeFits(ageField) ==>
      DecodeNewPlayer(r.body) == Some(NewPlayerDTO(Trim(nameField), AgeValue(ageField), email))
  {
    TrimEmptyIffWhitespace(nameField);
    var name := Trim(nameField);
    if name == "" then Rejected
    else
      var body := JObj(map["name" := JStr(name), "age" := AgeJson(ageField), "email" := JStr(email)]);
      assert body.fields.Keys == NewPlayerKeys;
      Request(body)
  }

  /** `saveEdit` sending the edited player's email along with the new name and age. */
  function SubmitEditWithEmail(editing: Option<PlayerDTO>, nameField: string, ageField: string): (r: EditSubmission)
    ensures editing.None? <==> r.NotEditing?
    ensures editing.Some? ==> (r.EditRejected? <==> AllWhitespace(nameField))
    ensures r.EditRequest? && AgeFits(ageField) ==>
      && r.id == editing.value.id
      && DecodeNewPlayer(r.body) == Some(NewPlayerDTO(Trim(nameField), AgeValue(ageField), editing.value.email))
  {
    match editing
    case None => NotEditing
    case Some(p) =>
      match SubmitAddWithEmail(nameField, ageField, p.email)
      case Rejected => EditRejected
      case Request(body) => EditRequest(p.id, body)
  }
}

=== FILE: dtos.dfy ===
/**
 * The records the server exchanges as JSON (model/DTOs.kt), with the
 * kotlinx.serialization decoding rules the server applies to request bodies:
 * a property without a default value is required (even when nullable),
 * `null` is only accepted for nullable properties, unknown keys are rejected,
 * and encoding writes every property, nulls included.
 */
module Dtos {
  import opened Wrappers
  import opened Numbers
  import opened Json

  // ---------------------------------------------------------------- players

  /** A stored player: a new-player request plus the store's `Int` id. */
  datatype PlayerDTO = PlayerDTO(id: Int32, name: string, age: Option<Int32>, email: string)

  /** The body of POST /players and PUT /players/{id}. Only `age` may be null. */
  datatype NewPlayerDTO = NewPlayerDTO(name: string, age: Option<Int32>, email: string)

  /** The snapshot `savePlayer` and PUT build from a request and an id. */
  function WithId(id: Int32, req: NewPlayerDTO): (p: PlayerDTO)
    ensures p.id == id
  {
    PlayerDTO(id, req.name, req.age, req.email)
  }

  /** The request part of a stored player. */
  function RequestOf(p: PlayerDTO): (req: NewPlayerDTO)
    ensures WithId(p.id, req) == p
  {
    NewPlayerDTO(p.name, p.age, p.email)
  }

  /** Attaching an id and taking the request part back loses nothing. */
  lemma RequestOfWithId(id: Int32, req: NewPlayerDTO)
    ensures RequestOf(WithId(id, req)) == req
  {
  }

  const PlayerKeys: set<string> := {"id", "name", "age", "email"}
  const NewPlayerKeys: set<string> := {"name", "age", "email"}

  function EncodePlayer(p: PlayerDTO): JValue {
    JObj(map["id" := JInt(p.id as int), "name" := JStr(p.name), "age" := IntOrNull(p.age), "email" := JStr(p.email)])
  }

  function DecodePlayer(v: JValue): (r: Option<PlayerDTO>)
    ensures r.Some? ==> EncodePlayer(r.value) == v
  {
    if !OnlyKeys(v, PlayerKeys) then None
    else
      match (IntMember(v, "id"), StrMember(v, "name"), NullableIntMember(v, "age"), StrMember(v, "email"))
      case (Some(id), Some(name), Some(age), Some(email)) =>
        assert v.fields.Keys == PlayerKeys;
        Some(PlayerDTO(id, name, age, email))
      case _ => None
  }

  lemma DecodeEncodePlayer(p: PlayerDTO)
    ensures DecodePlayer(EncodePlayer(p)) == Some(p)
  {
    var v := EncodePlayer(p);
    assert v.fields.Keys == PlayerKeys;
  }

  function EncodeNewPlayer(req: NewPlayerDTO): JValue {
    JObj(map["name" := JStr(req.name), "age" := IntOrNull(req.age), "email" := JStr(req.email)])
  }

  /**
   * `call.receive<NewPlayerDTO>()`: `name`, `age` and `email` must all be
   * present (`age` may be null), and no other key may appear.
   */
  function DecodeNewPlayer(v: JValue): (r: Option<NewPlayerDTO>)
    ensures r.Some? ==> EncodeNewPlayer(r.value) == v
    ensures Member(v, "email").None? ==> r.None?
    ensures Member(v, "age").None? ==> r.None?
  {
    if !OnlyKeys(v, NewPlayerKeys) then None
    else
      match (StrMember(v, "name"), NullableIntMember(v, "age"), StrMember(v, "email"))
      case (Some(name), Some(age), Some(email)) =>
        assert v.fields.Keys == NewPlayerKeys;
        Some(NewPlayerDTO(name, age, email))
      case _ => None
  }

  lemma DecodeEncodeNewPlayer(req: NewPlayerDTO)
    ensures DecodeNewPlayer(EncodeNewPlayer(req)) == Some(req)
  {
    var v := EncodeNewPlayer(req);
    assert v.fields.Keys == NewPlayerKeys;
  }

  // ---------------------------------------------------------------- users

  /** A row of the users table, password hash included. */
  datatype UserRow = UserRow(id: Int32, email: string, passwordHash: string, firstName: string, lastName: string, role: string)

  /** What the API may show of a user: never the password. */
  datatype UserDTO = UserDTO(id: Int32, email: string, firstName: string, lastName: string)

  function UserOf(row: UserRow): UserDTO {
    UserDTO(row.id, row.email, row.firstName, row.lastName)
  }

  function EncodeUser(u: UserDTO): (v: JValue)
    ensures v.JObj? && v.fields.Keys == {"id", "email", "firstName", "lastName"}
  {
    JObj(map["id" := JInt(u.id as int), "email" := JStr(u.email), "firstName" := JStr(u.firstName), "lastName" := JStr(u.lastName)])
  }

  /** Two users that differ only in password hash (or role) look the same on the wire. */
  lemma UserHidesPassword(a: UserRow, b: UserRow)
    requires a.id == b.id && a.email == b.email && a.firstName == b.firstName && a.lastName == b.lastName
    ensures EncodeUser(UserOf(a)) == EncodeUser(UserOf(b))
    ensures "passwordHash" !in EncodeUser(UserOf(a)).fields && "password" !in EncodeUser(UserOf(a)).fields
  {
  }

  // ---------------------------------------------------------------- teams

  datatype MemberDTO = MemberDTO(userId: Int32, name: string, isCaptain: bool)

  /** GET /teams lists a member as "lastName firstName". */
  function MemberOf(row: UserRow, isCaptain: bool): (m: MemberDTO)
    ensures m.userId == row.id && m.isCaptain == isCaptain
    ensures |m.name| == |row.lastName| + 1 + |row.firstName|
    ensures m.name[..|row.lastName|] == row.lastName && m.name[|row.lastName| + 1..] == row.firstName
    ensures m.name[|row.lastName|] == ' '
  {
    MemberDTO(row.id, row.lastName + " " + row.firstName, isCaptain)
  }

  /** The standings record of one team; `division` is nullable. */
  datatype TeamWithMembersDTO = TeamWithMembersDTO(
    teamId: Int32,
    teamName: string,
    clubName: string,
    division: Option<string>,
    members: seq<MemberDTO>,
    matchesPlayed: Int32,
    wins: Int32,
    losses: Int32,
    draws: Int32,
    points: Int32)

  // ---------------------------------------------------------------- matches

  datatype IndividualMatchDTO = IndividualMatchDTO(
    id: Int32, homePlayerName: string, guestPlayerName: string, homeScore: Int32, guestScore: Int32)

  /**
   * `teamSide` and `status` are plain strings. The source documents "HOME" or
   * "GUEST" and "APPLIED" or "SELECTED", but any string is accepted.
   */
  datatype MatchParticipantDTO = MatchParticipantDTO(id: Int32, playerName: string, teamSide: string, status: string)

  datatype MatchDTO = MatchDTO(
    id: Int32,
    roundNumber: Int32,
    homeTeamName: string,
    guestTeamName: string,
    homeScore: Int32,
    guestScore: Int32,
    date: string,
    status: string,
    location: string,
    individualMatches: Option<seq<IndividualMatchDTO>>,
    participants: Option<seq<MatchParticipantDTO>>)

  const IndividualKeys: set<string> := {"id", "homePlayerName", "guestPlayerName", "homeScore", "guestScore"}
  const ParticipantKeys: set<string> := {"id", "playerName", "teamSide", "status"}
  const MatchRequiredKeys: set<string> :=
    {"id", "roundNumber", "homeTeamName", "guestTeamName", "homeScore", "guestScore", "date", "status", "location"}
  const MatchOptionalKeys: set<string> := {"individualMatches", "participants"}

  function EncodeIndividual(m: IndividualMatchDTO): JValue {
    JObj(map["id" := JInt(m.id as int), "homePlayerName" := JStr(m.homePlayerName),
             "guestPlayerName" := JStr(m.guestPlayerName), "homeScore" := JInt(m.homeScore as int),
             "guestScore" := JInt(m.guestScore as int)])
  }

  function DecodeIndividual(v: JValue): Option<IndividualMatchDTO> {
    if !OnlyKeys(v, IndividualKeys) then None
    else
      match (IntMember(v, "id"), StrMember(v, "homePlayerName"), StrMember(v, "guestPlayerName"),
             IntMember(v, "homeScore"), IntMember(v, "guestScore"))
      case (Some(id), Some(h), Some(g), Some(hs), Some(gs)) => Some(IndividualMatchDTO(id, h, g, hs, gs))
      case _ => None
  }

  function EncodeParticipant(p: MatchParticipantDTO): JValue {
    JObj(map["id" := JInt(p.id as int), "playerName" := JStr(p.playerName),
             "teamSide" := JStr(p.teamSide), "status" := JStr(p.status)])
  }

  function DecodeParticipant(v: JValue): Option<MatchParticipantDTO> {
    if !OnlyKeys(v, ParticipantKeys) then None
    else
      match (IntMember(v, "id"), StrMember(v, "playerName"), StrMember(v, "teamSide"), StrMember(v, "status"))
      case (Some(id), Some(n), Some(side), Some(st)) => Some(MatchParticipantDTO(id, n, side, st))
      case _ => None
  }

  /**
   * A nullable list property WITH the default `null`: a missing key and an
   * explicit null both decode to null.
   */
  function OptionalList<T>(v: JValue, key: string, dec: JValue -> Option<T>): (r: Option<Option<seq<T>>>)
    ensures Member(v, key).None? ==> r == Some(None)
    ensures Member(v, key) == Some(JNull) ==> r == Some(None)
  {
    match Member(v, key)
    case None => Some(None)
    case Some(JNull) => Some(None)
    case Some(JArr(items)) =>
      (match DecodeAll(items, dec)
       case Some(xs) => Some(Some(xs))
       case None => None)
    case Some(_) => None
  }

  function ListOrNull<T>(o: Option<seq<T>>, enc: T -> JValue): JValue {
    match o
    case Some(xs) => JArr(EncodeAll(xs, enc))
    case None => JNull
  }

  /** Ktor encodes with defaults, so both list properties are always written. */
  function EncodeMatch(m: MatchDTO): (v: JValue)
    ensures v.JObj? && v.fields.Keys == MatchRequiredKeys + MatchOptionalKeys
  {
    JObj(map["id" := JInt(m.id as int), "roundNumber" := JInt(m.roundNumber as int),
             "homeTeamName" := JStr(m.homeTeamName), "guestTeamName" := JStr(m.guestTeamName),
             "homeScore" := JInt(m.homeScore as int), "guestScore" := JInt(m.guestScore as int),
             "date" := JStr(m.date), "status" := JStr(m.status), "location" := JStr(m.location),
             "individualMatches" := ListOrNull(m.individualMatches, EncodeIndividual),
             "participants" := ListOrNull(m.participants, EncodeParticipant)])
  }

  function DecodeMatch(v: JValue): (r: Option<MatchDTO>)
    ensures r.Some? ==> v.JObj? && MatchRequiredKeys <= v.fields.Keys
  {
    if !OnlyKeys(v, MatchRequiredKeys + MatchOptionalKeys) then None
    else
      match (IntMember(v, "id"), IntMember(v, "roundNumber"), StrMember(v, "homeTeamName"),
             StrMember(v, "guestTeamName"), IntMember(v, "homeScore"), IntMember(v, "guestScore"),
             StrMember(v, "date"), StrMember(v, "status"), StrMember(v, "location"),
             OptionalList(v, "individualMatches", DecodeIndividual),
             OptionalList(v, "participants", DecodeParticipant))
      case (Some(id), Some(round), Some(home), Some(guest), Some(hs), Some(gs),
            Some(date), Some(status), Some(loc), Some(ims), Some(ps)) =>
        Some(MatchDTO(id, round, home, guest, hs, gs, date, status, loc, ims, ps))
      case _ => None
  }

  lemma DecodeEncodeLists(m: MatchDTO)
    ensures m.individualMatches.Some? ==>
      DecodeAll(EncodeAll(m.individualMatches.value, EncodeIndividual), DecodeIndividual) == m.individualMatches
    ensures m.participants.Some? ==>
      DecodeAll(EncodeAll(m.participants.value, EncodeParticipant), DecodeParticipant) == m.participants
  {
    if m.individualMatches.Some? {
      var xs := m.individualMatches.value;
      forall k | 0 <= k < |xs| ensures DecodeIndividual(EncodeIndividual(xs[k])) == Some(xs[k]) {
        assert EncodeIndividual(xs[k]).fields.Keys == IndividualKeys;
      }
      DecodeEncodeAll(xs, EncodeIndividual, DecodeIndividual);
    }
    if m.participants.Some? {
      var ps := m.participants.value;
      forall k | 0 <= k < |ps| ensures DecodeParticipant(EncodeParticipant(ps[k])) == Some(ps[k]) {
        assert EncodeParticipant(ps[k]).fields.Keys == ParticipantKeys;
      }
      DecodeEncodeAll(ps, EncodeParticipant, DecodeParticipant);
    }
  }

  /** A match object whose eleven properties read as those of `m` decodes to `m`. */
  lemma DecodeMatchFrom(v: JValue, m: MatchDTO)
    requires OnlyKeys(v, MatchRequiredKeys + MatchOptionalKeys)
    requires IntMember(v, "id") == Some(m.id) && IntMember(v, "roundNumber") == Some(m.roundNumber)
    requires StrMember(v, "homeTeamName") == Some(m.homeTeamName) && StrMember(v, "guestTeamName") == Some(m.guestTeamName)
    requires IntMember(v, "homeScore") == Some(m.homeScore) && IntMember(v, "guestScore") == Some(m.guestScore)
    requires StrMember(v, "date") == Some(m.date) && StrMember(v, "status") == Some(m.status)
    requires StrMember(v, "location") == Some(m.location)
    requires OptionalList(v, "individualMatches", DecodeIndividual) == Some(m.individualMatches)
    requires OptionalList(v, "participants", DecodeParticipant) == Some(m.participants)
    ensures DecodeMatch(v) == Some(m)
  {
  }

  /** The nine required properties of an encoded match, read back. */
  lemma RequiredMembers(m: MatchDTO, v: JValue)
    requires v == EncodeMatch(m) || v == JObj(EncodeMatch(m).fields - MatchOptionalKeys)
    ensures IntMember(v, "id") == Some(m.id) && IntMember(v, "roundNumber") == Some(m.roundNumber)
    ensures StrMember(v, "homeTeamName") == Some(m.homeTeamName) && StrMember(v, "guestTeamName") == Some(m.guestTeamName)
    ensures IntMember(v, "homeScore") == Some(m.homeScore) && IntMember(v, "guestScore") == Some(m.guestScore)
    ensures StrMember(v, "date") == Some(m.date) && StrMember(v, "status") == Some(m.status)
    ensures StrMember(v, "location") == Some(m.location)
    ensures OnlyKeys(v, MatchRequiredKeys + MatchOptionalKeys)
  {
  }

  /** Every match the server writes reads back unchanged. */
  lemma DecodeEncodeMatch(m: MatchDTO)
    ensures DecodeMatch(EncodeMatch(m)) == Some(m)
  {
    var v := EncodeMatch(m);
    RequiredMembers(m, v);
    DecodeEncodeLists(m);
    assert OptionalList(v, "individualMatches", DecodeIndividual) == Some(m.individualMatches);
    assert OptionalList(v, "participants", DecodeParticipant) == Some(m.participants);
    DecodeMatchFrom(v, m);
  }

  /** Leaving out both list properties reads them as null: they default to null. */
  lemma MatchListsDefaultToNull(m: MatchDTO)
    ensures DecodeMatch(JObj(EncodeMatch(m).fields - MatchOptionalKeys))
         == Some(m.(individualMatches := None, participants := None))
  {
    var v := JObj(EncodeMatch(m).fields - MatchOptionalKeys);
    assert v.fields.Keys == MatchRequiredKeys;
    RequiredMembers(m, v);
    assert Member(v, "individualMatches").None? && Member(v, "participants").None?;
    DecodeMatchFrom(v, m.(individualMatches := None, participants := None));
  }

  /** Leaving out any other property makes the whole match unreadable. */
  lemma MatchOtherFieldsRequired(m: MatchDTO, key: string)
    requires key in MatchRequiredKeys
    ensures DecodeMatch(JObj(EncodeMatch(m).fields - {key})).None?
  {
  }
}

=== FILE: end_to_end.dfy ===
/**
 * The server handlers and the admin page together: what a browser's list
 * becomes after it receives the frames a handler sends, and what the server
 * makes of the bodies the page's forms send.
 */
module EndToEnd {
  import opened Wrappers
  import opened Numbers
  import opened Json
  import opened Dtos
  import opened Events
  import opened Registry
  import opened PlayersApi
  import opened Dashboard

  /** The list of the page behind session `s` after it has handled, in order, the frames sent to it. */
  function Deliver(data: seq<PlayerDTO>, sends: seq<Send>, s: SessionId): seq<PlayerDTO>
    decreases |sends|
  {
    if |sends| == 0 then data
    else
      var next := if sends[0].to == s then Reduce(data, Classify(sends[0].message)) else data;
      Deliver(next, sends[1..], s)
  }

  /** The same event handled `n` times. */
  function Repeat(data: seq<PlayerDTO>, e: Incoming, n: nat): seq<PlayerDTO>
    decreases n
  {
    if n == 0 then data else Repeat(Reduce(data, e), e, n - 1)
  }

  /** When every frame carries one message, a page handles that message once per frame addressed to it. */
  lemma {:induction false} DeliverUniform(data: seq<PlayerDTO>, sends: seq<Send>, s: SessionId, m: JValue)
    requires forall k :: 0 <= k < |sends| ==> sends[k].message == m
    ensures Deliver(data, sends, s) == Repeat(data, Classify(m), SendsTo(sends, s))
    decreases |sends|
  {
    if |sends| > 0 {
      var next := if sends[0].to == s then Reduce(data, Classify(m)) else data;
      DeliverUniform(next, sends[1..], s, m);
    }
  }

  /**
   * A successful POST reaches a connected page twice, and the page lists the
   * new player once: appended when its id was new, and not at all otherwise.
   */
  lemma PostAddsPlayerOnce(st: Store, clients: seq<SessionId>, body: JValue, failing1: set<SessionId>, failing2: set<SessionId>,
                           s: SessionId, data: seq<PlayerDTO>)
    requires Valid(st) && NoDup(clients) && s in clients
    requires PostPlayer(st, clients, body, failing1, failing2).status == StatusCreated
    ensures var p := PostPlayer(st, clients, body, failing1, failing2).body.player;
      Deliver(data, PostPlayer(st, clients, body, failing1, failing2).sends, s) == (if HasId(data, p.id) then data else data + [p])
  {
    var r := PostPlayer(st, clients, body, failing1, failing2);
    var p := r.body.player;
    var m := Message(PlayerAdded(p));
    PostSendsEachSessionTwice(st, clients, body, failing1, failing2, s);
    ClassifyEncode(PlayerAdded(p));
    DeliverUniform(data, r.sends, s, m);
    AddedTwice(data, p);
  }

  /** A page that handles the same PlayerAdded event twice lists the player once. */
  lemma AddedTwice(data: seq<PlayerDTO>, p: PlayerDTO)
    ensures Repeat(data, Added(p), 2) == (if HasId(data, p.id) then data else data + [p])
  {
    var once := Reduce(data, Added(p));
    assert Repeat(data, Added(p), 2) == Repeat(once, Added(p), 1) == Reduce(once, Added(p));
    AddedIdempotent(data, p);
    AddedAppendsOnlyNewIds(data, p);
  }

  /** A page that never heard of the id drops nothing when it is deleted; one that has it drops exactly that entry. */
  lemma DeleteReachesPage(st: Store, clients: seq<SessionId>, idText: string, s: SessionId, data: seq<PlayerDTO>)
    requires Valid(st) && NoDup(clients) && s in clients
    requires ParseIntOrNull(idText).Some?
    ensures Deliver(data, DeletePlayer(st, clients, idText, {}).sends, s) == RemoveId(data, ParseIntOrNull(idText).value)
  {
    var id := ParseIntOrNull(idText).value;
    var m := Message(PlayerDeleted(id));
    var r := DeletePlayer(st, clients, idText, {});
    CompletesIffNoFailure(clients, m, {});
    CompletedSendsOnceEach(clients, m, {}, s);
    ClassifyEncode(PlayerDeleted(id));
    DeliverUniform(data, r.sends, s, m);
  }

  /** What the add form as written sends is always refused with 400, and nothing changes. */
  lemma AddFormAsWrittenRefused(st: Store, clients: seq<SessionId>, nameField: string, ageField: string,
                                failing1: set<SessionId>, failing2: set<SessionId>)
    requires Valid(st) && SubmitAdd(nameField, ageField).Request?
    ensures var r := PostPlayer(st, clients, SubmitAdd(nameField, ageField).body, failing1, failing2);
      r.status == StatusBadRequest && r.store == st && r.sends == []
  {
    FormBodiesLackEmail(nameField, ageField, None);
  }

  /**
   * What the edit form as written sends for a player it is editing is always
   * refused with 400: the path id is read back, the body is not, and nothing
   * changes and nothing is broadcast.
   */
  lemma EditFormAsWrittenRefused(st: Store, clients: seq<SessionId>, editing: Option<PlayerDTO>,
                                 nameField: string, ageField: string, failing: set<SessionId>)
    requires Valid(st) && SubmitEdit(editing, nameField, ageField).EditRequest?
    ensures var sub := SubmitEdit(editing, nameField, ageField);
      && ParseIntOrNull(Show(sub.id as int)) == Some(sub.id)
      && var r := PutPlayer(st, clients, Show(sub.id as int), sub.body, failing);
         r == Reply(StatusBadRequest, NoBody, st, [])
  {
    var sub := SubmitEdit(editing, nameField, ageField);
    ParseShow(sub.id);
    FormBodiesLackEmail(nameField, ageField, editing);
  }

  /**
   * What the add form sends once it carries an email is saved with the
   * trimmed name and the age, when the id sequence has room and no session fails.
   */
  lemma AddFormWithEmailSaved(st: Store, clients: seq<SessionId>, nameField: string, ageField: string, email: string)
    requires Valid(st) && InInt32(st.nextId) && AgeFits(ageField)
    requires !AllWhitespace(nameField)
    ensures var sub := SubmitAddWithEmail(nameField, ageField, email);
      && sub.Request?
      && var r := PostPlayer(st, clients, sub.body, {}, {});
         && r.status == StatusCreated
         && r.store.rows == st.rows[r.body.player.id := NewPlayerDTO(Trim(nameField), AgeValue(ageField), email)]
  {
  }

  /** The edit form, once it carries the email, updates the edited player's row. */
  lemma EditFormWithEmailSaved(st: Store, clients: seq<SessionId>, editing: PlayerDTO, nameField: string, ageField: string)
    requires Valid(st) && AgeFits(ageField) && !AllWhitespace(nameField) && editing.id in st.rows
    ensures var sub := SubmitEditWithEmail(Some(editing), nameField, ageField);
      && sub.EditRequest?
      && var r := PutPlayer(st, clients, Show(sub.id as int), sub.body, {});
         && r.status == StatusOK
         && r.store.rows == st.rows[editing.id := NewPlayerDTO(Trim(nameField), AgeValue(ageField), editing.email)]
  {
    ParseShow(editing.id);
    CompletesIffNoFailure(clients, Message(PlayerUpdated(WithId(editing.id,
      NewPlayerDTO(Trim(nameField), AgeValue(ageField), editing.email)))), {});
  }
}

=== FILE: events.dfy ===
/**
 * The closed set of realtime player events (`WsEvent`), the message the server
 * sends for each (class discriminator "type", defaults encoded), and how the
 * browser reads such a message back in `handleEvent`.
 */
module Events {
  import opened Wrappers
  import opened Numbers
  import opened Json
  import opened Dtos

  datatype WsEvent =
    | PlayerAdded(player: PlayerDTO)
    | PlayerDeleted(id: Int32)
    | PlayerUpdated(player: PlayerDTO)

  /** The serial name kotlinx.serialization writes under "type". */
  function Tag(e: WsEvent): string {
    match e
    case PlayerAdded(_) => "PlayerAdded"
    case PlayerDeleted(_) => "PlayerDeleted"
    case PlayerUpdated(_) => "PlayerUpdated"
  }

  /** The message `json.encodeToString(WsEvent.serializer(), event)` denotes. */
  function Encode(e: WsEvent): (v: JValue)
    ensures Member(v, "type") == Some(JStr(Tag(e)))
  {
    match e
    case PlayerAdded(p) => JObj(map["type" := JStr("PlayerAdded"), "player" := EncodePlayer(p)])
    case PlayerDeleted(id) => JObj(map["type" := JStr("PlayerDeleted"), "id" := JInt(id as int)])
    case PlayerUpdated(p) => JObj(map["type" := JStr("PlayerUpdated"), "player" := EncodePlayer(p)])
  }

  /** Distinct events give distinct messages. */
  lemma EncodeInjective(a: WsEvent, b: WsEvent)
    requires Encode(a) == Encode(b)
    ensures a == b
  {
    assert Tag(a) == Tag(b);
    match a
    case PlayerAdded(p) =>
      assert b.PlayerAdded?;
      assert Member(Encode(b), "player") == Some(EncodePlayer(b.player)) == Some(EncodePlayer(p));
      DecodeEncodePlayer(p);
      DecodeEncodePlayer(b.player);
    case PlayerUpdated(p) =>
      assert b.PlayerUpdated?;
      assert Member(Encode(b), "player") == Some(EncodePlayer(b.player)) == Some(EncodePlayer(p));
      DecodeEncodePlayer(p);
      DecodeEncodePlayer(b.player);
    case PlayerDeleted(id) =>
      assert Member(Encode(b), "id") == Some(JInt(id as int));
  }

  /** What `handleEvent` makes of a parsed message. */
  datatype Incoming =
    | Added(player: PlayerDTO)
    | Deleted(id: Int32)
    | Updated(player: PlayerDTO)
    | Ignored

  /**
   * A player object as the page takes it in this model: the four properties
   * of a `PlayerDTO` with their types, any other property ignored. The page
   * itself reads only `id` and keeps the whole object.
   */
  function ReadPlayer(v: JValue): (r: Option<PlayerDTO>)
    ensures DecodePlayer(v).Some? ==> r == DecodePlayer(v)
  {
    match (IntMember(v, "id"), StrMember(v, "name"), NullableIntMember(v, "age"), StrMember(v, "email"))
    case (Some(id), Some(name), Some(age), Some(email)) => Some(PlayerDTO(id, name, age, email))
    case _ => None
  }

  /**
   * The `switch (eventData.type)` of `handleEvent`: the three known tags with a
   * readable payload, and everything else (unknown tags, non-objects) ignored.
   */
  function Classify(v: JValue): (r: Incoming)
    ensures Member(v, "type").None? ==> r == Ignored
    ensures r.Added? ==> Member(v, "type") == Some(JStr("PlayerAdded"))
    ensures r.Deleted? ==> Member(v, "type") == Some(JStr("PlayerDeleted"))
    ensures r.Updated? ==> Member(v, "type") == Some(JStr("PlayerUpdated"))
  {
    match Member(v, "type")
    case Some(JStr(tag)) =>
      if tag == "PlayerAdded" then
        (match Member(v, "player")
         case Some(pv) => (match ReadPlayer(pv) case Some(p) => Added(p) case None => Ignored)
         case None => Ignored)
      else if tag == "PlayerDeleted" then
        (match IntMember(v, "id") case Some(id) => Deleted(id) case None => Ignored)
      else if tag == "PlayerUpdated" then
        (match Member(v, "player")
         case Some(pv) => (match ReadPlayer(pv) case Some(p) => Updated(p) case None => Ignored)
         case None => Ignored)
      else Ignored
    case _ => Ignored
  }

  function AsIncoming(e: WsEvent): Incoming {
    match e
    case PlayerAdded(p) => Added(p)
    case PlayerDeleted(id) => Deleted(id)
    case PlayerUpdated(p) => Updated(p)
  }

  /** Every message the server sends reads back in the browser as the event it encodes. */
  lemma ClassifyEncode(e: WsEvent)
    ensures Classify(Encode(e)) == AsIncoming(e)
  {
    match e
    case PlayerAdded(p) => DecodeEncodePlayer(p);
    case PlayerUpdated(p) => DecodeEncodePlayer(p);
    case PlayerDeleted(id) =>
  }

  /** A message whose "type" is none of the three tags is ignored. */
  lemma UnknownTagIgnored(v: JValue, tag: string)
    requires Member(v, "type") == Some(JStr(tag))
    requires tag != "PlayerAdded" && tag != "PlayerDeleted" && tag != "PlayerUpdated"
    ensures Classify(v) == Ignored
  {
  }
}

=== FILE: json.dfy ===
/**
 * JSON documents as trees. Byte-level text is not modelled: a value is what
 * kotlinx.serialization and the browser's JSON.parse agree the text denotes.
 * Objects are maps, so key order is irrelevant, as it is to both readers.
 */
module Json {
  import opened Wrappers
  import opened Numbers

  datatype JValue =
    | JNull
    | JBool(b: bool)
    | JInt(n: int)
    | JStr(s: string)
    | JArr(items: seq<JValue>)
    | JObj(fields: map<string, JValue>)

  /** The member `key` of an object; absent for non-objects and missing keys. */
  function Member(v: JValue, key: string): (r: Option<JValue>)
    ensures r.Some? <==> v.JObj? && key in v.fields
  {
    if v.JObj? && key in v.fields then Some(v.fields[key]) else None
  }

  /** True when `v` is an object whose keys are all among `known` (no unknown keys). */
  predicate OnlyKeys(v: JValue, known: set<string>) {
    v.JObj? && v.fields.Keys <= known
  }

  /** A required, non-null Kotlin `Int` property. */
  function IntMember(v: JValue, key: string): (r: Option<Int32>)
    ensures r.Some? <==> Member(v, key).Some? && Member(v, key).value.JInt? && InInt32(Member(v, key).value.n)
    ensures r.Some? ==> Member(v, key).value.n == r.value as int
  {
    match Member(v, key)
    case Some(JInt(n)) => if InInt32(n) then Some(n as Int32) else None
    case _ => None
  }

  /** A required, non-null `String` property. */
  function StrMember(v: JValue, key: string): (r: Option<string>)
    ensures r.Some? <==> Member(v, key).Some? && Member(v, key).value.JStr?
    ensures r.Some? ==> Member(v, key).value == JStr(r.value)
  {
    match Member(v, key)
    case Some(JStr(s)) => Some(s)
    case _ => None
  }

  /**
   * A property of type `Int?` WITHOUT a default value: the key must be present
   * (kotlinx.serialization treats it as required); its value is null or an `Int`.
   * The outer option is "decoded", the inner one is Kotlin's null.
   */
  function NullableIntMember(v: JValue, key: string): (r: Option<Option<Int32>>)
    ensures Member(v, key).None? ==> r.None?
    ensures Member(v, key) == Some(JNull) ==> r == Some(None)
    ensures r.Some? && r.value.Some? ==> Member(v, key) == Some(JInt(r.value.value as int))
  {
    match Member(v, key)
    case Some(JNull) => Some(None)
    case Some(JInt(n)) => if InInt32(n) then Some(Some(n as Int32)) else None
    case _ => None
  }

  /** Encodes a Kotlin `Int?` the way encodeDefaults does: null is written, never omitted. */
  function IntOrNull(o: Option<Int32>): JValue {
    match o
    case Some(n) => JInt(n as int)
    case None => JNull
  }

  /** Decodes every element of an array with `dec`; fails if any element fails. */
  function DecodeAll<T>(items: seq<JValue>, dec: JValue -> Option<T>): (r: Option<seq<T>>)
    ensures r.Some? ==> |r.value| == |items|
    ensures r.Some? ==> forall k :: 0 <= k < |items| ==> dec(items[k]) == Some(r.value[k])
  {
    if |items| == 0 then Some([])
    else
      match dec(items[0])
      case None => None
      case Some(x) =>
        match DecodeAll(items[1..], dec)
        case None => None
        case Some(xs) => Some([x] + xs)
  }

  function EncodeAll<T>(xs: seq<T>, enc: T -> JValue): (r: seq<JValue>)
    ensures |r| == |xs|
    ensures forall k :: 0 <= k < |xs| ==> r[k] == enc(xs[k])
  {
    if |xs| == 0 then [] else [enc(xs[0])] + EncodeAll(xs[1..], enc)
  }

  /** A list encoded element by element decodes back when each element does. */
  lemma {:induction false} DecodeEncodeAll<T>(xs: seq<T>, enc: T -> JValue, dec: JValue -> Option<T>)
    requires forall k :: 0 <= k < |xs| ==> dec(enc(xs[k])) == Some(xs[k])
    ensures DecodeAll(EncodeAll(xs, enc), dec) == Some(xs)
  {
    if |xs| > 0 {
      var items := EncodeAll(xs, enc);
      assert items[1..] == EncodeAll(xs[1..], enc);
      DecodeEncodeAll(xs[1..], enc, dec);
      assert [xs[0]] + xs[1..] == xs;
    }
  }
}

=== FILE: numbers.dfy ===
/**
 * Kotlin's 32-bit `Int`, decimal rendering of integers (string templates such as
 * "$winPoints-$lossPoints"), `String.toIntOrNull` and `String.split` on a single
 * character delimiter.
 */
module Numbers {
  import opened Wrappers

  /** Kotlin `Int`: a two's-complement 32-bit integer. */
  newtype Int32 = x: int | -0x8000_0000 <= x < 0x8000_0000

  predicate InInt32(n: int) {
    -0x8000_0000 <= n < 0x8000_0000
  }

  /**
   * Kotlin `Int` arithmetic on a mathematical result: the unique `Int` that
   * agrees with it modulo 2^32.
   */
  function Wrap32(n: int): (r: Int32)
    ensures (r as int - n) % 0x1_0000_0000 == 0
    ensures InInt32(n) <==> r as int == n
  {
    var m := (n + 0x8000_0000) % 0x1_0000_0000;
    assert m - (n + 0x8000_0000) == -((n + 0x8000_0000) / 0x1_0000_0000) * 0x1_0000_0000;
    (m - 0x8000_0000) as Int32
  }

  predicate IsDigit(c: char) {
    '0' <= c <= '9'
  }

  predicate AllDigits(s: string) {
    forall i :: 0 <= i < |s| ==> IsDigit(s[i])
  }

  function DigitChar(d: nat): (c: char)
    requires d < 10
    ensures IsDigit(c) && c as int - '0' as int == d
  {
    (('0' as int) + d) as char
  }

  function DigitValue(c: char): (d: nat)
    requires IsDigit(c)
    ensures d < 10 && DigitChar(d) == c
  {
    c as int - '0' as int
  }

  /** Decimal digits of `n`, most significant first, without leading zeros. */
  function NatDigits(n: nat): (s: string)
    ensures 1 <= |s| && AllDigits(s)
    ensures n > 0 ==> s[0] != '0'
  {
    if n < 10 then [DigitChar(n)] else NatDigits(n / 10) + [DigitChar(n % 10)]
  }

  /** The number a string of decimal digits denotes. */
  function DigitsValue(s: string): nat
    requires AllDigits(s)
  {
    if |s| == 0 then 0 else DigitsValue(s[..|s| - 1]) * 10 + DigitValue(s[|s| - 1])
  }

  lemma {:induction false} DigitsValueOfNatDigits(n: nat)
    ensures DigitsValue(NatDigits(n)) == n
  {
    if n >= 10 {
      var s := NatDigits(n);
      assert s[..|s| - 1] == NatDigits(n / 10);
      DigitsValueOfNatDigits(n / 10);
    }
  }

  /** Kotlin's `Int.toString()` / string-template rendering in base 10. */
  function Show(n: int): (s: string)
    ensures 1 <= |s|
    ensures n >= 0 <==> IsDigit(s[0])
  {
    if n < 0 then "-" + NatDigits(-n) else NatDigits(n)
  }

  /** The text after an optional leading '-' or '+'. */
  function Unsigned(s: string): (d: string)
    ensures |d| <= |s| && d == s[|s| - |d|..]
  {
    if |s| > 0 && (s[0] == '-' || s[0] == '+') then s[1..] else s
  }

  /** The value of an optionally signed run of digits. */
  function SignedValue(s: string): int
    requires AllDigits(Unsigned(s))
  {
    if |s| > 0 && s[0] == '-' then -(DigitsValue(Unsigned(s)) as int) else DigitsValue(Unsigned(s))
  }

  /**
   * Kotlin's `String.toIntOrNull()` in radix 10: an optional leading '-' or '+',
   * then at least one digit; null when the text is anything else or the value
   * does not fit in an `Int`.
   */
  function ParseIntOrNull(s: string): (r: Option<Int32>)
    ensures r.Some? <==> |Unsigned(s)| > 0 && AllDigits(Unsigned(s)) && InInt32(SignedValue(s))
    ensures r.Some? ==> r.value as int == SignedValue(s)
    ensures r.Some? ==> 1 <= |s| && AllDigits(s[1..])
    ensures r.Some? ==> IsDigit(s[0]) || (2 <= |s| && (s[0] == '-' || s[0] == '+'))
    ensures r.Some? && s[0] == '-' ==> r.value <= 0
    ensures r.Some? && s[0] != '-' ==> r.value >= 0
  {
    var digits := Unsigned(s);
    if |digits| == 0 || !AllDigits(digits) then None
    else
      var v := SignedValue(s);
      if InInt32(v) then Some(v as Int32) else None
  }

  /** Rendering an `Int` and parsing it back gives the same `Int`. */
  lemma ParseShow(n: Int32)
    ensures ParseIntOrNull(Show(n as int)) == Some(n)
  {
    var s := Show(n as int);
    if n < 0 {
      var m: nat := -(n as int);
      assert s == "-" + NatDigits(m);
      assert s[0] == '-' && s[1..] == NatDigits(m);
      DigitsValueOfNatDigits(m);
      assert DigitsValue(s[1..]) == m;
    } else {
      assert s == NatDigits(n as int);
      assert IsDigit(s[0]) && AllDigits(s);
      DigitsValueOfNatDigits(n as int);
    }
  }

  /** The decimal text of an integer outside the `Int` range never reads as an `Int`. */
  lemma ParseRejectsOutOfRange(n: int)
    requires !InInt32(n)
    ensures ParseIntOrNull(Show(n)).None?
  {
    var s := Show(n);
    if n < 0 {
      assert s[0] == '-' && Unsigned(s) == NatDigits(-n);
      DigitsValueOfNatDigits(-n);
    } else {
      assert Unsigned(s) == NatDigits(n);
      DigitsValueOfNatDigits(n);
    }
  }

  /** Text that is not an optionally signed run of digits is never an `Int`. */
  lemma ParseRejectsNonDigit(s: string, i: int)
    requires 0 < i < |s| && !IsDigit(s[i])
    ensures ParseIntOrNull(s).None?
  {
  }

  /** Kotlin's `String.split(sep)` for a one-character delimiter. */
  function Split(s: string, sep: char): (parts: seq<string>)
    ensures 1 <= |parts|
    ensures forall k :: 0 <= k < |parts| ==> sep !in parts[k]
  {
    if |s| == 0 then [""]
    else
      var rest := Split(s[1..], sep);
      if s[0] == sep then [""] + rest
      else [[s[0]] + rest[0]] + rest[1..]
  }

  /** Kotlin's `joinToString(sep)`. */
  function Join(parts: seq<string>, sep: string): (r: string)
    ensures |parts| == 0 ==> r == ""
    ensures |parts| > 0 ==> parts[0] <= r
  {
    if |parts| == 0 then ""
    else if |parts| == 1 then parts[0]
    else parts[0] + sep + Join(parts[1..], sep)
  }

  /** Splitting and joining again with the same delimiter restores the text. */
  lemma {:induction false} JoinSplit(s: string, sep: char)
    ensures Join(Split(s, sep), [sep]) == s
  {
    if |s| > 0 {
      var rest := Split(s[1..], sep);
      JoinSplit(s[1..], sep);
      if s[0] == sep {
        assert Split(s, sep) == [""] + rest;
        assert s == [sep] + s[1..];
      } else {
        var parts := Split(s, sep);
        assert parts == [[s[0]] + rest[0]] + rest[1..];
        if |rest| == 1 {
          assert s == [s[0]] + rest[0];
        } else {
          assert rest == [rest[0]] + rest[1..];
          assert Join(rest, [sep]) == rest[0] + [sep] + Join(rest[1..], [sep]);
          assert parts[1..] == rest[1..];
          assert s == [s[0]] + s[1..];
        }
      }
    }
  }

  /** Text without the delimiter splits into itself. */
  lemma {:induction false} SplitWithoutSep(s: string, sep: char)
    requires sep !in s
    ensures Split(s, sep) == [s]
  {
    if |s| > 0 {
      SplitWithoutSep(s[1..], sep);
      assert s == [s[0]] + s[1..];
    }
  }

  /** The first delimiter ends the first part. */
  lemma {:induction false} SplitAtFirstSep(a: string, sep: char, b: string)
    requires sep !in a
    ensures Split(a + [sep] + b, sep) == [a] + Split(b, sep)
  {
    var s := a + [sep] + b;
    if |a| == 0 {
      assert s[1..] == b;
    } else {
      assert s[1..] == a[1..] + [sep] + b;
      SplitAtFirstSep(a[1..], sep, b);
      assert [a[0]] + a[1..] == a;
    }
  }
}

=== FILE: players_api.dfy ===
/**
 * The player write endpoints: POST /players, PUT /players/{id} and
 * DELETE /players/{id}, with `savePlayer`. Each handler is a function of the
 * store, the registry and the request, returning the status, the response
 * body, the new store and the frames sent to the registered sessions.
 */
module PlayersApi {
  import opened Wrappers
  import opened Numbers
  import opened Json
  import opened Dtos
  import opened Events
  import opened Registry

  const StatusOK: int := 200
  const StatusCreated: int := 201
  const StatusBadRequest: int := 400
  const StatusNotFound: int := 404
  const StatusInternalError: int := 500

  /**
   * The players table: rows by id, and the next value of its id sequence
   * (ids are handed out in increasing order starting at 1).
   */
  datatype Store = Store(rows: map<Int32, NewPlayerDTO>, nextId: int)

  predicate Valid(st: Store) {
    1 <= st.nextId && forall k :: k in st.rows ==> (k as int) < st.nextId
  }

  datatype Body = NoBody | Text(text: string) | Player(player: PlayerDTO)

  datatype Reply = Reply(status: int, body: Body, store: Store, sends: seq<Send>)

  datatype Saved = Saved(player: PlayerDTO, store: Store)

  /**
   * `savePlayer`: inserts the request and returns it with its new id. The
   * insert fails once the sequence has passed the largest `Int`.
   */
  function SavePlayer(st: Store, req: NewPlayerDTO): (r: Option<Saved>)
    requires Valid(st)
    ensures r.Some? <==> InInt32(st.nextId)
    ensures r.Some? ==> RequestOf(r.value.player) == req && r.value.player.id !in st.rows
    ensures r.Some? ==> r.value.store.rows == st.rows[r.value.player.id := req] && Valid(r.value.store)
    ensures r.Some? ==> r.value.player.id as int == st.nextId && r.value.store.nextId == st.nextId + 1
  {
    if InInt32(st.nextId) then
      var id := st.nextId as Int32;
      Some(Saved(WithId(id, req), Store(st.rows[id := req], st.nextId + 1)))
    else None
  }

  /** The message the handlers send for `e`. */
  function Message(e: WsEvent): JValue {
    Encode(e)
  }

  /**
   * POST /players. The body must decode as a NewPlayerDTO; the player is saved,
   * the encoded PlayerAdded message goes through two consecutive send loops
   * over `clients`, and the answer is 201 with the saved player. A send that
   * throws ends the handler after the commit, with 500. The sessions whose send
   * throws may differ between the two loops (a session can close after its
   * first frame), so each loop has its own set of failing sessions.
   */
  function PostPlayer(st: Store, clients: seq<SessionId>, body: JValue, failing1: set<SessionId>, failing2: set<SessionId>): (r: Reply)
    requires Valid(st)
    ensures Valid(r.store)
    ensures r.status == StatusBadRequest <==> DecodeNewPlayer(body).None?
    ensures r.status == StatusBadRequest ==> r.store == st && r.sends == []
    ensures r.status in {StatusCreated, StatusBadRequest, StatusInternalError}
    ensures DecodeNewPlayer(body).Some? && !InInt32(st.nextId) ==> r == Reply(StatusInternalError, NoBody, st, [])
    ensures DecodeNewPlayer(body).Some? && InInt32(st.nextId) ==>
      var req := DecodeNewPlayer(body).value;
      var message := Message(PlayerAdded(WithId(st.nextId as Int32, req)));
      var first := ForEachSend(clients, message, failing1);
      && r.store == Store(st.rows[st.nextId as Int32 := req], st.nextId + 1)
      && r.sends == (if first.completed then first.sent + ForEachSend(clients, message, failing2).sent else first.sent)
    ensures r.status == StatusCreated ==>
      && r.body.Player?
      && RequestOf(r.body.player) == DecodeNewPlayer(body).value
      && r.body.player.id !in st.rows && r.body.player.id as int == st.nextId
      && r.store.rows == st.rows[r.body.player.id := DecodeNewPlayer(body).value]
      && var once := ForEachSend(clients, Message(PlayerAdded(r.body.player)), {}).sent;
         r.sends == once + once
    ensures r.status == StatusCreated <==>
      && DecodeNewPlayer(body).Some? && InInt32(st.nextId)
      && (forall i :: 0 <= i < |clients| ==> clients[i] !in failing1)
      && (forall i :: 0 <= i < |clients| ==> clients[i] !in failing2)
    ensures r.status == StatusInternalError ==> r.body == NoBody
  {
    match DecodeNewPlayer(body)
    case None => Reply(StatusBadRequest, NoBody, st, [])
    case Some(req) =>
      match SavePlayer(st, req)
      case None => Reply(StatusInternalError, NoBody, st, [])
      case Some(Saved(saved, st')) =>
        var message := Message(PlayerAdded(saved));
        var first := ForEachSend(clients, message, failing1);
        if !first.completed then Reply(StatusInternalError, NoBody, st', first.sent)
        else
          var second := ForEachSend(clients, message, failing2);
          SendsWithoutFailures(clients, message, failing1);
          if !second.completed then Reply(StatusInternalError, NoBody, st', first.sent + second.sent)
          else
            SendsWithoutFailures(clients, message, failing2);
            Reply(StatusCreated, Player(saved), st', first.sent + second.sent)
  }

  /** A loop that meets no failing session sends what a loop with no failures sends. */
  lemma SendsWithoutFailures(c: seq<SessionId>, message: JValue, failing: set<SessionId>)
    requires ForEachSend(c, message, failing).completed
    ensures ForEachSend(c, message, failing) == ForEachSend(c, message, {})
  {
    var a := ForEachSend(c, message, failing);
    var b := ForEachSend(c, message, {});
    assert a.sent == b.sent;
  }

  /**
   * PUT /players/{id}. A non-integer id answers 400 before the body is read;
   * an id with no row answers 404; otherwise the row is overwritten, one
   * PlayerUpdated message with the path id and the request's fields goes to
   * every session, and the answer is 200 with that player.
   */
  function PutPlayer(st: Store, clients: seq<SessionId>, idText: string, body: JValue, failing: set<SessionId>): (r: Reply)
    requires Valid(st)
    ensures Valid(r.store)
    ensures ParseIntOrNull(idText).None? ==> r == Reply(StatusBadRequest, Text("Invalid ID"), st, [])
    ensures ParseIntOrNull(idText).Some? && DecodeNewPlayer(body).None? ==> r == Reply(StatusBadRequest, NoBody, st, [])
    ensures r.status in {StatusOK, StatusBadRequest, StatusNotFound, StatusInternalError}
    ensures r.status == StatusNotFound <==>
      ParseIntOrNull(idText).Some? && DecodeNewPlayer(body).Some? && ParseIntOrNull(idText).value !in st.rows
    ensures r.status in {StatusBadRequest, StatusNotFound} ==> r.store == st && r.sends == []
    ensures r.status == StatusNotFound ==> r.body == Text("Player not found")
    ensures ParseIntOrNull(idText).Some? && DecodeNewPlayer(body).Some? && ParseIntOrNull(idText).value in st.rows ==>
      var id := ParseIntOrNull(idText).value;
      var req := DecodeNewPlayer(body).value;
      && r.store == Store(st.rows[id := req], st.nextId)
      && r.sends == ForEachSend(clients, Message(PlayerUpdated(WithId(id, req))), failing).sent
    ensures r.status == StatusOK ==>
      && ParseIntOrNull(idText).Some? && DecodeNewPlayer(body).Some?
      && var id := ParseIntOrNull(idText).value;
         var req := DecodeNewPlayer(body).value;
         && id in st.rows
         && r.body == Player(WithId(id, req))
         && r.sends == ForEachSend(clients, Message(PlayerUpdated(WithId(id, req))), {}).sent
    ensures r.status == StatusOK <==>
      && ParseIntOrNull(idText).Some? && DecodeNewPlayer(body).Some? && ParseIntOrNull(idText).value in st.rows
      && forall i :: 0 <= i < |clients| ==> clients[i] !in failing
    ensures (&& ParseIntOrNull(idText).Some? && DecodeNewPlayer(body).Some? && ParseIntOrNull(idText).value in st.rows
             && exists i :: 0 <= i < |clients| && clients[i] in failing) ==>
      r.status == StatusInternalError && r.body == NoBody
  {
    match ParseIntOrNull(idText)
    case None => Reply(StatusBadRequest, Text("Invalid ID"), st, [])
    case Some(id) =>
      match DecodeNewPlayer(body)
      case None => Reply(StatusBadRequest, NoBody, st, [])
      case Some(req) =>
        if id !in st.rows then Reply(StatusNotFound, Text("Player not found"), st, [])
        else
          var st' := Store(st.rows[id := req], st.nextId);
          var saved := WithId(id, req);
          var sent := ForEachSend(clients, Message(PlayerUpdated(saved)), failing);
          if !sent.completed then Reply(StatusInternalError, NoBody, st', sent.sent)
          else
            SendsWithoutFailures(clients, Message(PlayerUpdated(saved)), failing);
            Reply(StatusOK, Player(saved), st', sent.sent)
  }

  /**
   * DELETE /players/{id}. A non-integer id answers 400. Otherwise the row is
   * deleted if it exists, PlayerDeleted(id) goes to every session, and the
   * answer is 200 whether or not a row was there.
   */
  function DeletePlayer(st: Store, clients: seq<SessionId>, idText: string, failing: set<SessionId>): (r: Reply)
    requires Valid(st)
    ensures Valid(r.store)
    ensures ParseIntOrNull(idText).None? ==> r == Reply(StatusBadRequest, Text("Invalid ID"), st, [])
    ensures ParseIntOrNull(idText).Some? ==>
      && r.store == Store(st.rows - {ParseIntOrNull(idText).value}, st.nextId)
      && r.sends == ForEachSend(clients, Message(PlayerDeleted(ParseIntOrNull(idText).value)), failing).sent
    ensures r.status in {StatusOK, StatusBadRequest, StatusInternalError}
    ensures r.status == StatusOK <==>
      ParseIntOrNull(idText).Some? && forall i :: 0 <= i < |clients| ==> clients[i] !in failing
    ensures ParseIntOrNull(idText).Some? && (exists i :: 0 <= i < |clients| && clients[i] in failing) ==>
      r.status == StatusInternalError && r.body == NoBody
  {
    match ParseIntOrNull(idText)
    case None => Reply(StatusBadRequest, Text("Invalid ID"), st, [])
    case Some(id) =>
      var st' := Store(st.rows - {id}, st.nextId);
      var sent := ForEachSend(clients, Message(PlayerDeleted(id)), failing);
      Reply(if sent.completed then StatusOK else StatusInternalError, NoBody, st', sent.sent)
  }

  /** The id sequence never goes back: a POST after a DELETE never hands out the deleted id again. */
  lemma DeletedIdNotReused(st: Store, clients: seq<SessionId>, idText: string, failing: set<SessionId>,
                           body: JValue, failing1: set<SessionId>, failing2: set<SessionId>)
    requires Valid(st)
    requires ParseIntOrNull(idText).Some? && ParseIntOrNull(idText).value in st.rows
    ensures var d := DeletePlayer(st, clients, idText, failing);
      var p := PostPlayer(d.store, clients, body, failing1, failing2);
      p.status == StatusCreated ==> p.body.player.id != ParseIntOrNull(idText).value && p.body.player.id !in st.rows
  {
  }

  /**
   * POST delivers its PlayerAdded message to every registered session twice,
   * and every frame it sends reads back in the browser as that event.
   */
  lemma {:induction false} PostSendsEachSessionTwice(st: Store, clients: seq<SessionId>, body: JValue,
                                                         failing1: set<SessionId>, failing2: set<SessionId>, s: SessionId)
    requires Valid(st) && NoDup(clients)
    requires PostPlayer(st, clients, body, failing1, failing2).status == StatusCreated
    ensures var r := PostPlayer(st, clients, body, failing1, failing2);
      && SendsTo(r.sends, s) == (if s in clients then 2 else 0)
      && (forall k :: 0 <= k < |r.sends| ==> r.sends[k].message == Message(PlayerAdded(r.body.player)))
      && forall k :: 0 <= k < |r.sends| ==> Classify(r.sends[k].message) == Added(r.body.player)
  {
    var r := PostPlayer(st, clients, body, failing1, failing2);
    var message := Message(PlayerAdded(r.body.player));
    var once := ForEachSend(clients, message, {});
    assert r.sends == once.sent + once.sent;
    forall k | 0 <= k < |r.sends| ensures r.sends[k].message == message {
      if k < |once.sent| {
        assert r.sends[k] == once.sent[k];
      } else {
        assert r.sends[k] == once.sent[k - |once.sent|];
      }
    }
    SendsToAppend(once.sent, once.sent, s);
    CompletedSendsOnceEach(clients, message, {}, s);
    ClassifyEncode(PlayerAdded(r.body.player));
  }

  /** PUT with an existing id delivers exactly one PlayerUpdated message to each session. */
  lemma PutSendsEachSessionOnce(st: Store, clients: seq<SessionId>, idText: string, body: JValue, failing: set<SessionId>, s: SessionId)
    requires Valid(st) && NoDup(clients)
    requires PutPlayer(st, clients, idText, body, failing).status == StatusOK
    ensures var r := PutPlayer(st, clients, idText, body, failing);
      && SendsTo(r.sends, s) == (if s in clients then 1 else 0)
      && forall k :: 0 <= k < |r.sends| ==> Classify(r.sends[k].message) == Updated(r.body.player)
  {
    var r := PutPlayer(st, clients, idText, body, failing);
    var message := Message(PlayerUpdated(r.body.player));
    CompletedSendsOnceEach(clients, message, {}, s);
    ClassifyEncode(PlayerUpdated(r.body.player));
  }

  /** DELETE of an id with no row still broadcasts and still answers 200. */
  lemma DeleteMissingStillBroadcasts(st: Store, clients: seq<SessionId>, idText: string, s: SessionId)
    requires Valid(st) && NoDup(clients)
    requires ParseIntOrNull(idText).Some? && ParseIntOrNull(idText).value !in st.rows
    ensures var r := DeletePlayer(st, clients, idText, {});
      && r.status == StatusOK && r.store == st
      && SendsTo(r.sends, s) == (if s in clients then 1 else 0)
  {
    var id := ParseIntOrNull(idText).value;
    assert st.rows - {id} == st.rows;
    CompletedSendsOnceEach(clients, Message(PlayerDeleted(id)), {}, s);
  }
}

=== FILE: registry.dfy ===
/**
 * The connection registry `clients` of the realtime endpoint /ws/players and
 * the `clients.forEach { it.send(message) }` fan-out. Sessions are identified
 * by number; the registry is the Kotlin list in its current order.
 * Operations are applied one at a time.
 */
module Registry {
  import opened Json

  type SessionId = nat

  /** One outgoing frame: `message` delivered to session `to`. */
  datatype Send = Send(to: SessionId, message: JValue)

  predicate NoDup(c: seq<SessionId>) {
    forall i, j :: 0 <= i < j < |c| ==> c[i] != c[j]
  }

  /** Position of the first occurrence of `s`. */
  function IndexOf(c: seq<SessionId>, s: SessionId): (i: nat)
    requires s in c
    ensures i < |c| && c[i] == s && s !in c[..i]
  {
    if c[0] == s then 0
    else
      var k := IndexOf(c[1..], s);
      assert c[..k + 1] == [c[0]] + c[1..][..k];
      k + 1
  }

  /** `MutableList.remove(element)`: drops the first occurrence of `s`, if any. */
  function RemoveFirst(c: seq<SessionId>, s: SessionId): (r: seq<SessionId>)
    ensures s !in c ==> r == c
    ensures s in c ==> r == c[..IndexOf(c, s)] + c[IndexOf(c, s) + 1..]
  {
    if |c| == 0 then []
    else if c[0] == s then c[1..]
    else
      var rest := RemoveFirst(c[1..], s);
      if s in c then
        assert s in c[1..];
        var i := IndexOf(c[1..], s);
        assert IndexOf(c, s) == i + 1;
        assert rest == c[1..][..i] + c[1..][i + 1..];
        assert [c[0]] + c[1..][..i] == c[..i + 1];
        assert c[1..][i + 1..] == c[i + 2..];
        [c[0]] + rest
      else
        [c[0]] + rest
  }

  /** How a session's incoming channel ended: normally, or by an exception. */
  datatype SessionEnd = ChannelClosed | Failed

  /** What the /ws/players handler does to `clients`: add on connect, remove in `finally`. */
  datatype RegistryOp = Open(s: SessionId) | Close(s: SessionId, how: SessionEnd)

  /** Dropping the one occurrence of `s` from a duplicate-free registry removes exactly `s`. */
  lemma RemoveFirstKeepsUnique(c: seq<SessionId>, s: SessionId)
    requires NoDup(c)
    ensures NoDup(RemoveFirst(c, s)) && forall x :: x in RemoveFirst(c, s) <==> x in c && x != s
  {
    if s in c {
      var r := RemoveFirst(c, s);
      var i := IndexOf(c, s);
      assert r == c[..i] + c[i + 1..];
      assert |r| == |c| - 1;
      forall a | 0 <= a < |r| ensures r[a] == c[if a < i then a else a + 1] {
      }
      forall a, b | 0 <= a < b < |r| ensures r[a] != r[b] {
        assert r[a] == c[if a < i then a else a + 1];
        assert r[b] == c[if b < i then b else b + 1];
      }
      forall x | x in r ensures x in c && x != s {
        var a :| 0 <= a < |r| && r[a] == x;
        assert r[a] == c[if a < i then a else a + 1];
      }
      forall x | x in c && x != s ensures x in r {
        var j :| 0 <= j < |c| && c[j] == x;
        if j < i { assert r[j] == x; } else { assert r[j - 1] == x; }
      }
    }
  }

  function Apply(c: seq<SessionId>, op: RegistryOp): (r: seq<SessionId>)
    ensures op.Open? && NoDup(c) && op.s !in c ==> NoDup(r)
    ensures op.Open? ==> forall x :: x in r <==> x in c || x == op.s
    ensures op.Close? && NoDup(c) ==> NoDup(r) && forall x :: x in r <==> x in c && x != op.s
  {
    match op
    case Open(s) => c + [s]
    case Close(s, _) =>
      assert NoDup(c) ==> NoDup(RemoveFirst(c, s)) && forall x :: x in RemoveFirst(c, s) <==> x in c && x != s by {
        if NoDup(c) { RemoveFirstKeepsUnique(c, s); }
      }
      RemoveFirst(c, s)
  }

  /** The registry after a sequence of operations, starting from `c`. */
  function Run(c: seq<SessionId>, ops: seq<RegistryOp>): seq<SessionId> {
    if |ops| == 0 then c else Apply(Run(c, ops[..|ops| - 1]), ops[|ops| - 1])
  }

  function Opened(ops: seq<RegistryOp>): set<SessionId> {
    if |ops| == 0 then {}
    else Opened(ops[..|ops| - 1]) + (if ops[|ops| - 1].Open? then {ops[|ops| - 1].s} else {})
  }

  function Closed(ops: seq<RegistryOp>): set<SessionId> {
    if |ops| == 0 then {}
    else Closed(ops[..|ops| - 1]) + (if ops[|ops| - 1].Close? then {ops[|ops| - 1].s} else {})
  }

  /**
   * The traces the handler produces: every session object is new when it
   * connects, and its `finally` runs once, after its connect.
   */
  predicate Lifecycle(ops: seq<RegistryOp>) {
    if |ops| == 0 then true
    else
      var prefix := ops[..|ops| - 1];
      var op := ops[|ops| - 1];
      && Lifecycle(prefix)
      && (op.Open? ==> op.s !in Opened(prefix))
      && (op.Close? ==> op.s in Opened(prefix) && op.s !in Closed(prefix))
  }

  /**
   * Along any such trace the registry holds each session at most once, and
   * holds exactly the sessions that connected and whose handler has not yet
   * reached `finally`, however their channels ended.
   */
  lemma {:induction false} RegistryTracksOpenSessions(ops: seq<RegistryOp>)
    requires Lifecycle(ops)
    ensures NoDup(Run([], ops))
    ensures forall x :: x in Run([], ops) <==> x in Opened(ops) && x !in Closed(ops)
    ensures Closed(ops) <= Opened(ops)
  {
    if |ops| > 0 {
      RegistryTracksOpenSessions(ops[..|ops| - 1]);
    }
  }

  /** A lone session leaves the registry as it found it. */
  lemma {:induction false} SessionLeavesNoTrace(c: seq<SessionId>, s: SessionId, how: SessionEnd)
    requires s !in c
    ensures Apply(Apply(c, Open(s)), Close(s, how)) == c
  {
    var c' := c + [s];
    var i := IndexOf(c', s);
    assert c'[|c|] == s;
    assert c'[..i] == c;
  }

  /** The outcome of one `forEach` send loop. */
  datatype SendOutcome = SendOutcome(sent: seq<Send>, completed: bool)

  /**
   * `clients.forEach { it.send(message) }` where sending to a session in
   * `failing` throws. Nothing catches the exception, so the loop stops at the
   * first failing session: the sessions before it have received the message,
   * the ones after it have not.
   */
  function ForEachSend(c: seq<SessionId>, message: JValue, failing: set<SessionId>): (r: SendOutcome)
    ensures |r.sent| <= |c|
    ensures forall i :: 0 <= i < |r.sent| ==> r.sent[i] == Send(c[i], message) && c[i] !in failing
    ensures r.completed <==> |r.sent| == |c|
    ensures !r.completed ==> c[|r.sent|] in failing
  {
    if |c| == 0 then SendOutcome([], true)
    else if c[0] in failing then SendOutcome([], false)
    else
      var rest := ForEachSend(c[1..], message, failing);
      SendOutcome([Send(c[0], message)] + rest.sent, rest.completed)
  }

  /** The loop completes exactly when no registered session fails. */
  lemma CompletesIffNoFailure(c: seq<SessionId>, message: JValue, failing: set<SessionId>)
    ensures ForEachSend(c, message, failing).completed <==> forall i :: 0 <= i < |c| ==> c[i] !in failing
  {
  }

  /** Number of frames addressed to `s`. */
  function SendsTo(sends: seq<Send>, s: SessionId): nat {
    if |sends| == 0 then 0 else (if sends[0].to == s then 1 else 0) + SendsTo(sends[1..], s)
  }

  lemma {:induction false} SendsToAppend(a: seq<Send>, b: seq<Send>, s: SessionId)
    ensures SendsTo(a + b, s) == SendsTo(a, s) + SendsTo(b, s)
  {
    if |a| > 0 {
      assert (a + b)[0] == a[0] && (a + b)[1..] == a[1..] + b;
      SendsToAppend(a[1..], b, s);
    } else {
      assert a + b == b;
    }
  }

  /** A completed loop sends each registered session exactly one frame. */
  lemma {:induction false} CompletedSendsOnceEach(c: seq<SessionId>, message: JValue, failing: set<SessionId>, s: SessionId)
    requires NoDup(c) && ForEachSend(c, message, failing).completed
    ensures SendsTo(ForEachSend(c, message, failing).sent, s) == (if s in c then 1 else 0)
  {
    if |c| > 0 {
      var rest := ForEachSend(c[1..], message, failing);
      assert NoDup(c[1..]);
      CompletedSendsOnceEach(c[1..], message, failing, s);
      assert ForEachSend(c, message, failing).sent == [Send(c[0], message)] + rest.sent;
      assert ([Send(c[0], message)] + rest.sent)[1..] == rest.sent;
      if s == c[0] {
        assert s !in c[1..];
      } else {
        assert s in c <==> s in c[1..];
      }
    }
  }

  /** Every frame a loop sends carries its one message. */
  lemma SentFramesCarryMessage(c: seq<SessionId>, message: JValue, failing: set<SessionId>, f: Send)
    requires f in ForEachSend(c, message, failing).sent
    ensures f.message == message && f.to in c && f.to !in failing
  {
  }
}

=== FILE: sets.dfy ===
/**
 * The seeder's simulation of an individual match: `generateSetScore` draws
 * one set score, and `playIndividualMatch` plays sets until one player has
 * won three, then records the row. The random numbers are passed in: each
 * `SetDraws` holds what the `random()` calls of one set return.
 */
module SetPlay {
  import opened Wrappers
  import opened Numbers

  /**
   * `tier` from (0..10), `longWin` from (12..15), `shortLoss` from (0..9),
   * `flip` from (0..1). A call whose value the set does not use is still
   * given one; it is ignored.
   */
  datatype SetDraws = SetDraws(tier: int, longWin: int, shortLoss: int, flip: int)

  predicate InRange(d: SetDraws) {
    0 <= d.tier <= 10 && 12 <= d.longWin <= 15 && 0 <= d.shortLoss <= 9 && 0 <= d.flip <= 1
  }

  /** A set score as home points and guest points. */
  datatype SetScore = SetScore(home: int, guest: int)

  /**
   * The score `generateSetScore` picks: the winner has 11 points in eight
   * cases out of eleven and 12 to 15 otherwise; a winner on 11 leaves the
   * loser 0 to 9 points, a longer set ends two points apart; `flip` says
   * which side won.
   */
  function Points(d: SetDraws): (r: SetScore)
    ensures d.tier < 8 ==> r.home == 11 || r.guest == 11
    ensures InRange(d) ==> (r.home > r.guest <==> d.flip == 0)
  {
    var win := if d.tier < 8 then 11 else d.longWin;
    var loss := if win == 11 then d.shortLoss else win - 2;
    if d.flip == 0 then SetScore(win, loss) else SetScore(loss, win)
  }

  /** A finished table-tennis set as this code produces it, up to 15 points. */
  predicate ValidSetScore(sc: SetScore) {
    var hi := if sc.home > sc.guest then sc.home else sc.guest;
    var lo := if sc.home > sc.guest then sc.guest else sc.home;
    && sc.home != sc.guest
    && ((hi == 11 && 0 <= lo <= 9) || (12 <= hi <= 15 && lo == hi - 2))
  }

  /** Every score drawn from in-range values is a valid set score. */
  lemma PointsValid(d: SetDraws)
    requires InRange(d)
    ensures ValidSetScore(Points(d))
  {
  }

  /** Every valid set score can be drawn. */
  lemma PointsReachEveryScore(sc: SetScore)
    requires ValidSetScore(sc)
    ensures exists d :: InRange(d) && Points(d) == sc
  {
    var hi := if sc.home > sc.guest then sc.home else sc.guest;
    var lo := if sc.home > sc.guest then sc.guest else sc.home;
    var flip := if sc.home > sc.guest then 0 else 1;
    var d := if hi == 11 then SetDraws(0, 12, lo, flip) else SetDraws(10, hi, 0, flip);
    assert InRange(d) && Points(d) == sc;
  }

  /** The "$home-$guest" text of a score. */
  function Format(sc: SetScore): string {
    Show(sc.home) + "-" + Show(sc.guest)
  }

  /** `generateSetScore()`: the drawn score as text. */
  function GenerateSetScore(d: SetDraws): (s: string)
    requires InRange(d)
    ensures ReadScore(s) == Some(Points(d))
  {
    ReadFormat(Points(d));
    Format(Points(d))
  }

  /** `score.split("-")` followed by `toInt()` on its first two parts. */
  function ReadScore(s: string): (r: Option<SetScore>)
    ensures '-' !in s ==> r.None?
    ensures r.Some? ==> InInt32(r.value.home) && InInt32(r.value.guest)
  {
    var parts := Split(s, '-');
    assert '-' !in s ==> |parts| == 1 by {
      if '-' !in s { SplitWithoutSep(s, '-'); }
    }
    if |parts| < 2 then None
    else
      match (ParseIntOrNull(parts[0]), ParseIntOrNull(parts[1]))
      case (Some(a), Some(b)) => Some(SetScore(a as int, b as int))
      case _ => None
  }

  lemma NoDashInDigits(n: nat)
    ensures '-' !in Show(n)
  {
    var s := Show(n);
    assert AllDigits(s);
    assert forall k :: 0 <= k < |s| ==> s[k] != '-';
  }

  /** The text of a score with non-negative sides splits and parses back to it. */
  lemma ReadFormat(sc: SetScore)
    requires 0 <= sc.home < 0x8000_0000 && 0 <= sc.guest < 0x8000_0000
    ensures Split(Format(sc), '-') == [Show(sc.home), Show(sc.guest)]
    ensures ReadScore(Format(sc)) == Some(sc)
  {
    SplitFormat(sc);
    ParseShow(sc.home as Int32);
    ParseShow(sc.guest as Int32);
    ReadScoreOfParts(Format(sc), sc.home as Int32, sc.guest as Int32);
  }

  /** The text of a score with non-negative sides splits at its one '-'. */
  lemma SplitFormat(sc: SetScore)
    requires 0 <= sc.home && 0 <= sc.guest
    ensures Split(Format(sc), '-') == [Show(sc.home), Show(sc.guest)]
  {
    NoDashInDigits(sc.home);
    NoDashInDigits(sc.guest);
    SplitAtFirstSep(Show(sc.home), '-', Show(sc.guest));
    SplitWithoutSep(Show(sc.guest), '-');
  }

  /** `ReadScore` on a text whose first two parts parse. */
  lemma ReadScoreOfParts(s: string, a: Int32, b: Int32)
    requires |Split(s, '-')| >= 2
    requires ParseIntOrNull(Split(s, '-')[0]) == Some(a) && ParseIntOrNull(Split(s, '-')[1]) == Some(b)
    ensures ReadScore(s) == Some(SetScore(a as int, b as int))
  {
  }

  /** The loop's test: the home player won the set. */
  predicate HomeWon(d: SetDraws) {
    Points(d).home > Points(d).guest
  }

  /** Sets the home player won among `ds`. */
  function HomeSets(ds: seq<SetDraws>): (n: nat)
    ensures n <= |ds|
  {
    if |ds| == 0 then 0
    else HomeSets(ds[..|ds| - 1]) + (if HomeWon(ds[|ds| - 1]) then 1 else 0)
  }

  /** The scores of the sets, in order. */
  function SetScores(ds: seq<SetDraws>): (r: seq<SetScore>)
    ensures |r| == |ds|
  {
    if |ds| == 0 then [] else SetScores(ds[..|ds| - 1]) + [Points(ds[|ds| - 1])]
  }

  lemma SetScoresStep(ds: seq<SetDraws>, i: nat)
    requires i < |ds|
    ensures SetScores(ds[..i + 1]) == SetScores(ds[..i]) + [Points(ds[i])]
  {
    assert ds[..i + 1][..i] == ds[..i];
  }

  /** The texts of a list of set scores. */
  function Texts(ss: seq<SetScore>): (r: seq<string>)
    ensures |r| == |ss| && forall k :: 0 <= k < |ss| ==> r[k] == Format(ss[k])
  {
    if |ss| == 0 then [] else [Format(ss[0])] + Texts(ss[1..])
  }

  lemma HomeSetsStep(ds: seq<SetDraws>, i: nat)
    requires i < |ds|
    ensures HomeSets(ds[..i + 1]) == HomeSets(ds[..i]) + (if HomeWon(ds[i]) then 1 else 0)
  {
    assert ds[..i + 1][..i] == ds[..i];
  }


  /** One player has reached three sets. */
  predicate Decided(ds: seq<SetDraws>) {
    HomeSets(ds) >= 3 || |ds| - HomeSets(ds) >= 3
  }

  /** Neither player had three sets at any earlier point either. */
  lemma {:induction false} UndecidedBefore(ds: seq<SetDraws>, n: nat)
    requires n <= |ds| && !Decided(ds[..n])
    ensures forall k :: 0 <= k <= n ==> !Decided(ds[..k])
  {
    if n > 0 {
      HomeSetsStep(ds, n - 1);
      UndecidedBefore(ds, n - 1);
    }
  }

  /**
   * One pass of the loop body: draw a set, split its text at '-' and compare
   * the two numbers.
   */
  method PlaySet(d: SetDraws) returns (score: SetScore, homeWon: bool)
    requires InRange(d)
    ensures score == Points(d) && Format(score) == GenerateSetScore(d)
    ensures homeWon <==> HomeWon(d)
  {
    var text := GenerateSetScore(d);
    var parsed := ReadScore(text).value;
    score := Points(d);
    homeWon := parsed.home > parsed.guest;
  }

  /** The player name the seeder records for a user id. */
  function UserName(id: Int32): string {
    "User " + Show(id as int)
  }

  /** The `set_scores` column: the set texts joined with ", ". */
  function SetScoresText(ss: seq<SetScore>): string {
    Join(Texts(ss), ", ")
  }

  /** The `individual_matches` row the seeder inserts. */
  datatype IndividualMatchRow = IndividualMatchRow(
    matchId: Int32,
    homePlayerName: string,
    guestPlayerName: string,
    homeScore: Int32,
    guestScore: Int32,
    homeSetsWon: Int32,
    guestSetsWon: Int32,
    setScores: string)

  /** A match that ends with `home` sets to `guest` after exactly the sets it needed from `ds`. */
  predicate PlayedOut(ds: seq<SetDraws>, home: nat, guest: nat)
    requires forall i :: 0 <= i < |ds| ==> InRange(ds[i])
  {
    var n := home + guest;
    && ((home == 3 && guest < 3) || (guest == 3 && home < 3))
    && 1 <= n <= |ds|
    && home == HomeSets(ds[..n])
    && Decided(ds[..n])
    && !Decided(ds[..n - 1])
  }

  /** A played-out match stops at the first set after which a player has three. */
  lemma PlayedOutStopsAtFirstDecision(ds: seq<SetDraws>, home: nat, guest: nat)
    requires forall i :: 0 <= i < |ds| ==> InRange(ds[i])
    requires PlayedOut(ds, home, guest)
    ensures 3 <= home + guest <= 5
    ensures forall k :: 0 <= k < home + guest ==> !Decided(ds[..k])
  {
    UndecidedBefore(ds, home + guest - 1);
  }

  /** What one more set does to the loop's counters, before a player has three. */
  lemma PlayStep(draws: seq<SetDraws>, i: nat, homeSets: nat, guestSets: nat)
    requires forall k :: 0 <= k < |draws| ==> InRange(draws[k])
    requires i < |draws| && i == homeSets + guestSets && homeSets < 3 && guestSets < 3
    requires homeSets == HomeSets(draws[..i])
    ensures !Decided(draws[..i])
    ensures HomeSets(draws[..i + 1]) == homeSets + (if HomeWon(draws[i]) then 1 else 0)
    ensures SetScores(draws[..i + 1]) == SetScores(draws[..i]) + [Points(draws[i])]
  {
    assert |draws[..i]| == i;
    HomeSetsStep(draws, i);
    SetScoresStep(draws, i);
  }

  /** The `while` loop of `playIndividualMatch`: sets are played until one player has three. */
  method PlaySets(draws: seq<SetDraws>) returns (homeSets: nat, guestSets: nat, scores: seq<SetScore>)
    requires |draws| >= 5 && forall i :: 0 <= i < |draws| ==> InRange(draws[i])
    ensures PlayedOut(draws, homeSets, guestSets)
    ensures homeSets + guestSets <= 5
    ensures scores == SetScores(draws[..homeSets + guestSets])
  {
    homeSets := 0;
    guestSets := 0;
    scores := [];
    var i := 0;
    while homeSets < 3 && guestSets < 3
      invariant homeSets <= 3 && guestSets <= 3
      invariant i == homeSets + guestSets && i <= 5
      invariant homeSets == HomeSets(draws[..i])
      invariant scores == SetScores(draws[..i])
      invariant i == 0 || !Decided(draws[..i - 1])
      invariant i <= |draws|
      decreases 6 - homeSets - guestSets
    {
      var score, homeWon := PlaySet(draws[i]);
      PlayStep(draws, i, homeSets, guestSets);
      if homeWon {
        homeSets := homeSets + 1;
      } else {
        guestSets := guestSets + 1;
      }
      scores := scores + [score];
      i := i + 1;
    }
  }

  /**
   * `playIndividualMatch`: plays the sets `draws` supplies, in order, until
   * one player has three, and records the set count as the score. A match
   * takes at most five sets, so five draws always suffice.
   */
  method PlayIndividualMatch(matchId: Int32, homeUser: Int32, guestUser: Int32, draws: seq<SetDraws>)
    returns (row: IndividualMatchRow)
    requires |draws| >= 5 && forall i :: 0 <= i < |draws| ==> InRange(draws[i])
    ensures row.matchId == matchId
    ensures row.homePlayerName == UserName(homeUser) && row.guestPlayerName == UserName(guestUser)
    ensures row.homeScore == row.homeSetsWon && row.guestScore == row.guestSetsWon
    ensures row.homeSetsWon >= 0 && row.guestSetsWon >= 0
    ensures PlayedOut(draws, row.homeSetsWon as int, row.guestSetsWon as int)
    ensures 3 <= row.homeSetsWon as int + row.guestSetsWon as int <= 5
    ensures row.setScores == SetScoresText(SetScores(draws[..row.homeSetsWon as int + row.guestSetsWon as int]))
  {
    var homeSets, guestSets, scores := PlaySets(draws);
    row := IndividualMatchRow(matchId, UserName(homeUser), UserName(guestUser),
      homeSets as Int32, guestSets as Int32, homeSets as Int32, guestSets as Int32, SetScoresText(scores));
    assert draws[..row.homeSetsWon as int + row.guestSetsWon as int] == draws[..homeSets + guestSets];
  }
}

=== FILE: standings.dfy ===
/**
 * GET /teams: each team's record over its finished matches. A match counts
 * for a team when the team plays in it and its status is "finished"; it is a
 * draw when the scores are equal, a win when the team's own score is higher,
 * and a loss otherwise. Points are two per win and one per draw.
 */
module Standings {
  import opened Wrappers
  import opened Numbers
  import opened Dtos

  /** The columns of a `matches` row that the standings read. */
  datatype MatchRow = MatchRow(homeTeamId: Int32, guestTeamId: Int32, homeScore: Int32, guestScore: Int32, status: string)

  const Finished: string := "finished"

  predicate Counted(row: MatchRow, team: Int32) {
    row.status == Finished && (row.homeTeamId == team || row.guestTeamId == team)
  }

  /** The select: the rows that count for `team`, in table order. */
  function TeamMatches(rows: seq<MatchRow>, team: Int32): (r: seq<MatchRow>)
    ensures |r| <= |rows|
    ensures forall m :: m in r <==> m in rows && Counted(m, team)
  {
    if |rows| == 0 then []
    else (if Counted(rows[0], team) then [rows[0]] else []) + TeamMatches(rows[1..], team)
  }

  /** The select keeps every copy of a counted row: equal rows are distinct matches. */
  lemma {:induction false} TeamMatchesKeepsCopies(rows: seq<MatchRow>, team: Int32, m: MatchRow)
    ensures multiset(TeamMatches(rows, team))[m] == if Counted(m, team) then multiset(rows)[m] else 0
  {
    if |rows| > 0 {
      TeamMatchesKeepsCopies(rows[1..], team, m);
      var head := if Counted(rows[0], team) then [rows[0]] else [];
      var rest := TeamMatches(rows[1..], team);
      assert TeamMatches(rows, team) == head + rest;
      assert rows == [rows[0]] + rows[1..];
      assert multiset(rows) == multiset{rows[0]} + multiset(rows[1..]);
      assert multiset(head + rest) == multiset(head) + multiset(rest);
    }
  }

  lemma {:induction false} TeamMatchesAppend(a: seq<MatchRow>, b: seq<MatchRow>, team: Int32)
    ensures TeamMatches(a + b, team) == TeamMatches(a, team) + TeamMatches(b, team)
  {
    if |a| == 0 {
      assert a + b == b;
    } else {
      assert (a + b)[0] == a[0] && (a + b)[1..] == a[1..] + b;
      TeamMatchesAppend(a[1..], b, team);
    }
  }

  datatype Result = Win | Draw | Loss

  /**
   * The `when` over one match, its branches in source order. A team on both
   * sides of a match is treated as the home team.
   */
  function Outcome(row: MatchRow, team: Int32): Result {
    var isHome := row.homeTeamId == team;
    if row.homeScore == row.guestScore then Draw
    else if isHome && row.homeScore > row.guestScore then Win
    else if !isHome && row.guestScore > row.homeScore then Win
    else Loss
  }

  /** The team's own score and the opponent's, seen from `team`'s side. */
  function OwnScore(row: MatchRow, team: Int32): Int32 {
    if row.homeTeamId == team then row.homeScore else row.guestScore
  }

  function OpponentScore(row: MatchRow, team: Int32): Int32 {
    if row.homeTeamId == team then row.guestScore else row.homeScore
  }

  /** A win is a higher own score, a draw an equal one, a loss a lower one. */
  lemma OutcomeByScores(row: MatchRow, team: Int32)
    ensures Outcome(row, team) == Win <==> OwnScore(row, team) > OpponentScore(row, team)
    ensures Outcome(row, team) == Draw <==> OwnScore(row, team) == OpponentScore(row, team)
    ensures Outcome(row, team) == Loss <==> OwnScore(row, team) < OpponentScore(row, team)
  {
  }

  function Opposite(r: Result): Result {
    match r
    case Win => Loss
    case Draw => Draw
    case Loss => Win
  }

  /** Between two different teams, one team's win is the other's loss. */
  lemma OutcomeOpposite(row: MatchRow)
    requires row.homeTeamId != row.guestTeamId
    ensures Outcome(row, row.guestTeamId) == Opposite(Outcome(row, row.homeTeamId))
  {
  }

  /** The three counters of the loop. */
  datatype Record = Record(wins: nat, draws: nat, losses: nat)

  function Plus(a: Record, b: Record): Record {
    Record(a.wins + b.wins, a.draws + b.draws, a.losses + b.losses)
  }

  function Single(r: Result): Record {
    match r
    case Win => Record(1, 0, 0)
    case Draw => Record(0, 1, 0)
    case Loss => Record(0, 0, 1)
  }

  /** `teamMatches.forEach`: one counter goes up per match. */
  function Tally(ms: seq<MatchRow>, team: Int32): (r: Record)
    ensures r.wins + r.draws + r.losses == |ms|
  {
    if |ms| == 0 then Record(0, 0, 0) else Plus(Single(Outcome(ms[0], team)), Tally(ms[1..], team))
  }

  lemma {:induction false} TallyAppend(a: seq<MatchRow>, b: seq<MatchRow>, team: Int32)
    ensures Tally(a + b, team) == Plus(Tally(a, team), Tally(b, team))
  {
    if |a| == 0 {
      assert a + b == b;
    } else {
      assert (a + b)[0] == a[0] && (a + b)[1..] == a[1..] + b;
      TallyAppend(a[1..], b, team);
      PlusAssoc(Single(Outcome(a[0], team)), Tally(a[1..], team), Tally(b, team));
    }
  }

  /** A single match goes to the counter of its result. */
  lemma TallySingle(m: MatchRow, team: Int32)
    ensures Tally([m], team) == Single(Outcome(m, team))
  {
    assert [m][1..] == [];
  }

  /** The record over two runs of rows is the sum of their records. */
  lemma SelectTallyAppend(a: seq<MatchRow>, b: seq<MatchRow>, team: Int32)
    ensures Tally(TeamMatches(a + b, team), team) == Plus(Tally(TeamMatches(a, team), team), Tally(TeamMatches(b, team), team))
  {
    TeamMatchesAppend(a, b, team);
    TallyAppend(TeamMatches(a, team), TeamMatches(b, team), team);
  }

  /** The first row of `a` sits somewhere in any reordering `b`; the rest of the rows match. */
  lemma FindFirst(a: seq<MatchRow>, b: seq<MatchRow>) returns (i: nat)
    requires |a| > 0 && multiset(a) == multiset(b)
    ensures i < |b| && b[i] == a[0]
    ensures multiset(a[1..]) == multiset(b[..i] + b[i + 1..])
  {
    assert a[0] in multiset(b);
    i :| 0 <= i < |b| && b[i] == a[0];
    assert b == b[..i] + [a[0]] + b[i + 1..];
    assert a == [a[0]] + a[1..];
    calc {
      multiset(a[1..]);
      multiset(a) - multiset{a[0]};
      multiset(b) - multiset{a[0]};
      multiset(b[..i]) + multiset(b[i + 1..]);
      multiset(b[..i] + b[i + 1..]);
    }
  }

  /** A run of rows in the middle contributes to the record as it would at the front. */
  lemma SelectTallyMiddle(front: seq<MatchRow>, mid: seq<MatchRow>, back: seq<MatchRow>, team: Int32)
    ensures Tally(TeamMatches(front + mid + back, team), team)
         == Plus(Tally(TeamMatches(mid, team), team), Tally(TeamMatches(front + back, team), team))
  {
    var f := Tally(TeamMatches(front, team), team);
    var m := Tally(TeamMatches(mid, team), team);
    var k := Tally(TeamMatches(back, team), team);
    SelectTallyAppend(front + mid, back, team);
    SelectTallyAppend(front, mid, team);
    SelectTallyAppend(front, back, team);
    PlusSwap(f, m, k);
  }

  lemma PlusAssoc(f: Record, m: Record, k: Record)
    ensures Plus(f, Plus(m, k)) == Plus(Plus(f, m), k)
  {
  }

  lemma PlusSwap(f: Record, m: Record, k: Record)
    ensures Plus(Plus(f, m), k) == Plus(m, Plus(f, k))
  {
  }

  /**
   * The record does not depend on the order the database returns the rows in:
   * any two orderings of the same rows give the same record.
   */
  lemma {:induction false} TallyOrderFree(a: seq<MatchRow>, b: seq<MatchRow>, team: Int32)
    requires multiset(a) == multiset(b)
    ensures Tally(TeamMatches(a, team), team) == Tally(TeamMatches(b, team), team)
    decreases |a|
  {
    if |a| == 0 {
      assert |multiset(b)| == 0;
    } else {
      var i := FindFirst(a, b);
      var front, back := b[..i], b[i + 1..];
      assert b == front + [a[0]] + back;
      assert a == [a[0]] + a[1..];
      TallyOrderFree(a[1..], front + back, team);
      SelectTallyAppend([a[0]], a[1..], team);
      SelectTallyMiddle(front, [a[0]], back, team);
    }
  }

  /** A row that is not finished, or that the team does not play in, changes nothing. */
  lemma UncountedRowIgnored(rows: seq<MatchRow>, row: MatchRow, team: Int32)
    requires !Counted(row, team)
    ensures TeamMatches(rows + [row], team) == TeamMatches(rows, team)
  {
    TeamMatchesAppend(rows, [row], team);
  }

  /** Two points per win, one per draw, before Kotlin's `Int` arithmetic. */
  function RecordPoints(r: Record): nat {
    2 * r.wins + r.draws
  }

  /** One match between two different teams gives them two points between them. */
  lemma MatchPoints(row: MatchRow, a: Int32, b: Int32)
    requires a != b && Between(row, a, b)
    ensures RecordPoints(Single(Outcome(row, a))) + RecordPoints(Single(Outcome(row, b))) == 2
  {
    OutcomeOpposite(row);
    var home := Outcome(row, row.homeTeamId);
    var guest := Outcome(row, row.guestTeamId);
    OppositePoints(home);
    if row.homeTeamId == a {
      assert Outcome(row, a) == home && Outcome(row, b) == guest;
    } else {
      assert Outcome(row, a) == guest && Outcome(row, b) == home;
    }
  }

  lemma PlusPoints(x: Record, y: Record)
    ensures RecordPoints(Plus(x, y)) == RecordPoints(x) + RecordPoints(y)
  {
  }

  lemma TallyPointsCons(ms: seq<MatchRow>, team: Int32)
    requires |ms| > 0
    ensures RecordPoints(Tally(ms, team)) == RecordPoints(Single(Outcome(ms[0], team))) + RecordPoints(Tally(ms[1..], team))
  {
    PlusPoints(Single(Outcome(ms[0], team)), Tally(ms[1..], team));
  }

  lemma OppositePoints(r: Result)
    ensures RecordPoints(Single(r)) + RecordPoints(Single(Opposite(r))) == 2
  {
    var own := RecordPoints(Single(r));
    var other := RecordPoints(Single(Opposite(r)));
    match r
    case Win => assert own == 2; assert other == 0;
    case Draw => assert own == 1; assert other == 1;
    case Loss => assert own == 0; assert other == 2;
  }

  /** The match is between `a` and `b`, in either order. */
  predicate Between(row: MatchRow, a: Int32, b: Int32) {
    (row.homeTeamId == a && row.guestTeamId == b) || (row.homeTeamId == b && row.guestTeamId == a)
  }

  /** Every match between two different teams hands out exactly two points in total. */
  lemma {:induction false} HeadToHeadPoints(ms: seq<MatchRow>, a: Int32, b: Int32)
    requires a != b
    requires forall k :: 0 <= k < |ms| ==> Between(ms[k], a, b)
    ensures RecordPoints(Tally(ms, a)) + RecordPoints(Tally(ms, b)) == 2 * |ms|
  {
    if |ms| > 0 {
      var rest := ms[1..];
      forall k | 0 <= k < |rest| ensures Between(rest[k], a, b) {
        assert rest[k] == ms[k + 1];
      }
      HeadToHeadPoints(rest, a, b);
      MatchPoints(ms[0], a, b);
      TallyPointsCons(ms, a);
      TallyPointsCons(ms, b);
    }
  }

  /** Counters that add up to fewer than 2^31 matches are `Int`s; the points wrap. */
  lemma CountersFit(t: Record, played: nat)
    requires t.wins + t.draws + t.losses == played < 0x8000_0000
    ensures InInt32(t.wins) && InInt32(t.draws) && InInt32(t.losses)
    ensures (Wrap32(RecordPoints(t)) as int - RecordPoints(t)) % 0x1_0000_0000 == 0
    ensures RecordPoints(t) < 0x8000_0000 ==> Wrap32(RecordPoints(t)) as int == RecordPoints(t)
  {
  }

  /**
   * One entry of the /teams response. The counters and the match count are
   * Kotlin `Int`s; `points` is computed in `Int` arithmetic.
   */
  function Standing(teamId: Int32, teamName: string, clubName: string, division: Option<string>,
                    members: seq<MemberDTO>, rows: seq<MatchRow>): (d: TeamWithMembersDTO)
    requires |TeamMatches(rows, teamId)| < 0x8000_0000
    ensures d.teamId == teamId && d.teamName == teamName && d.clubName == clubName
    ensures d.division == division && d.members == members
    ensures d.matchesPlayed as int == |TeamMatches(rows, teamId)|
    ensures d.wins as int + d.draws as int + d.losses as int == d.matchesPlayed as int
    ensures var t := Tally(TeamMatches(rows, teamId), teamId);
      d.wins as int == t.wins && d.draws as int == t.draws && d.losses as int == t.losses
    ensures (d.points as int - RecordPoints(Tally(TeamMatches(rows, teamId), teamId))) % 0x1_0000_0000 == 0
    ensures 2 * d.wins as int + d.draws as int < 0x8000_0000 ==> d.points as int == 2 * d.wins as int + d.draws as int
  {
    Entry(teamId, teamName, clubName, division, members, TeamMatches(rows, teamId))
  }

  /** The entry built from the team's finished matches `ms`. */
  function Entry(teamId: Int32, teamName: string, clubName: string, division: Option<string>,
                 members: seq<MemberDTO>, ms: seq<MatchRow>): (d: TeamWithMembersDTO)
    requires |ms| < 0x8000_0000
    ensures d.teamId == teamId && d.teamName == teamName && d.clubName == clubName
    ensures d.division == division && d.members == members
    ensures d.matchesPlayed as int == |ms|
    ensures d.wins as int + d.draws as int + d.losses as int == d.matchesPlayed as int
    ensures var t := Tally(ms, teamId);
      d.wins as int == t.wins && d.draws as int == t.draws && d.losses as int == t.losses
    ensures (d.points as int - RecordPoints(Tally(ms, teamId))) % 0x1_0000_0000 == 0
    ensures 2 * d.wins as int + d.draws as int < 0x8000_0000 ==> d.points as int == 2 * d.wins as int + d.draws as int
  {
    var t := Tally(ms, teamId);
    CountersFit(t, |ms|);
    TeamWithMembersDTO(teamId, teamName, clubName, division, members,
      |ms| as Int32, t.wins as Int32, t.losses as Int32, t.draws as Int32, Wrap32(RecordPoints(t)))
  }
}

=== FILE: wrappers.dfy ===
/** Optional values: Kotlin's nullable types and "not present" results. */
module Wrappers {
  datatype Option<+T> = None | Some(value: T)
}
